=== FILE: README.md ===
# yesorno decision and normalisation logic, in Dafny

yesorno is a Streamlit app. It reads a photo of a pregnancy test strip and
says whether the strip looks positive. It also reads the printed text of an
ultrasound picture and keeps a record of past analyses. This project models
the pure logic inside that app and proves properties of it:

- **`StripApp`** (`app.py`) covers the strip page.
  - The fast colour-only verdict: RGB red and pink masks, the coloured-pixel
    ratio and the 0.8% threshold.
  - The precise verdict: the Hough segments filtered by angle, and the
    ordered four-branch cascade over line count and colour ratio.
  - The fallback to the fast verdict when an OpenCV call raises.
- **`PregnancyTestAnalyzer`** (`modules/pregnancy_test_analyzer.py`) covers
  the analyzer class.
  - The angle classification and the line count.
  - The HSV red share, including its `None` case and the rejection of an
    image with no pixels by the HSV conversion.
  - The verdict, the message, the confidence, and the result of the
    `except` branch.
- **`UltrasoundAnalyzer`** (`modules/ultrasound_analyzer.py`) covers the
  ultrasound text.
  - The choice among four OCR passes, with the OCR engine as an oracle.
  - The normalisers for the gestational age, the sex and the date.
- **`Utils`** (`modules/utils.py`) covers the records helpers.
  - `get_week_number`, the regular-expression search `(\d+)[주w]`.
  - `create_progress_chart`.
  - The week filter of the gallery.
  - The checks `validate_image` makes before it hands the file to PIL.
- **Support modules** model the Python parts the code relies on.
  - `Builtins`: `None`, exceptions, `min`/`max`/`abs`.
  - `PyStr`: `strip`, `upper`, `lower`, `replace`, `split`, `zfill`,
    `isdigit`, `int()` and `str()`.
  - `Seqs`: counting and filtering.
  - `Hough`: detected line segments as data.

Ratios and confidences are Dafny `real`s. numpy's `0 / 0` is NaN, and every
comparison with NaN is false, so `StripApp.Ratio` carries an explicit `NaN`
case. The fast analysis meets that case on an image without pixels, and
calls it negative. OpenCV's `cvtColor` rejects such an image, so the
precise analysis falls back to the fast one before any ratio is taken.
`Decide` still treats a NaN ratio as Python would: `max(0.6, nan)` returns
0.6. In the analyzer class the first `cvtColor` rejects the empty image
too, and `analyze` returns its failure result with OpenCV's assertion
text. The division in `_analyze_color_intensity` is therefore never
reached with zero pixels.

## Model

| member | source | states |
|---|---|---|
| StripApp.MasksDisjoint | app.py:43-44 | no pixel satisfies both the red mask (G < 80) and the pink mask (G > 100) |
| StripApp.MaskSumIsColoredCount | app.py:43-46 | the sum of the two mask sums equals the number of pixels that are red or pink, each counted once |
| StripApp.ColoredPixels | app.py:43-46 | the number of red-or-pink pixels, which never exceeds the number of pixels |
| StripApp.ColoredRatio | app.py:46-48 | NaN exactly when the image has no pixels; otherwise a fraction in [0, 1] that, times the pixel count, gives back the coloured count |
| StripApp.SimpleColorAnalysis | app.py:50-68 | positive exactly when the ratio exceeds 0.008; a positive result has the positive message and confidence in (0.64, 0.75]; a negative one has confidence 0.65 and the negative message; the disclaimer is always the colour-analysis one |
| StripApp.FastConfidenceMonotone | app.py:50-51 | of two images the fast analysis calls positive, the one with the larger coloured ratio never gets the lower confidence |
| StripApp.ClassifySegment | app.py:103-112 | an exactly vertical segment (x1 == x2) is never filed; a segment is vertical iff x1 != x2 and abs(angle) is in [70, 110]; a segment is horizontal iff x1 != x2, it is not vertical, and abs(angle) is at most 20 or at least 160 |
| StripApp.LineCount | app.py:123 | 0 when nothing was detected; otherwise the number of segments filed as vertical, at most the number detected |
| StripApp.LineCountIsBandCount | app.py:98-123 | the line count equals the number of segments with x1 != x2 and abs(angle) in [70, 110], a definition that does not use the filter loop |
| StripApp.ExactlyVerticalIgnored | app.py:103-109 | adding a segment with x2 == x1 never changes the line count |
| StripApp.VerticalAndHorizontalDisjoint | app.py:107-112 | no segment is in both the vertical and the horizontal list |
| StripApp.TierOf | app.py:129-144 | the branch reached for each line count: with two or more lines, the several-lines branch iff the ratio exceeds 0.5%, else negative; with one line, the one-line branch iff it exceeds 1%, else negative; with no line, the colour-only branch iff it exceeds 1.5%, else negative; a NaN ratio is always negative |
| StripApp.Decide | app.py:129-144 | positive exactly when a non-negative branch matches; two or more lines above 0.5% give the "임신으로 추정됩니다 (n개 선 감지)" text with confidence in (0.8, 0.9]; one line above 1% gives "임신 가능성이 있습니다 (1개 선 감지)" with (0.75, 0.8]; no line above 1.5% gives the colour-based text with (0.65, 0.75]; a negative has the negative text and [0.6, 0.8]; so always [0.6, 0.9] |
| StripApp.DecidePositiveIff | app.py:129-141 | regardless of branch order, positive iff ratio > 1.5%, or ratio > 1% with at least one line, or ratio > 0.5% with at least two lines |
| StripApp.DecideConfidenceMonotone | app.py:129-144 | within one branch, a larger ratio never lowers a positive confidence and never raises a negative one |
| StripApp.NoColourIsNegative | app.py:141-144 | with no coloured pixel the verdict is negative with confidence 0.8, whatever the line count |
| StripApp.ManyLinesNeedColor | app.py:129-144 | with two or more lines and a ratio of at most 0.5%, the verdict is negative however many lines there are |
| StripApp.OpencvLineAnalysis | app.py:71-157 | when an OpenCV call raises, or the image has no pixels (which the first `cvtColor` rejects), the result is exactly the fast analysis of the same image; otherwise the method, details, verdict, message and confidence are those of the cascade for the line count and coloured ratio, under the line-detection disclaimer; confidence always lies in [0.6, 0.9] |
| StripApp.PreciseColorOnlyImpliesFast | app.py:137-140 | a precise positive with no line implies a fast positive on the same image, because 1.5% is above 0.8% |
| PregnancyTestAnalyzer.ClassifyAngle | modules/pregnancy_test_analyzer.py:50-58 | a horizontal segment has abs(angle) above 10, because the vertical test takes [0, 10] first; an angle beyond 180 is never filed |
| PregnancyTestAnalyzer.AngleBands | modules/pregnancy_test_analyzer.py:50-58 | for an angle in [-180, 180]: vertical iff abs(angle) is in [0, 10] or [80, 100]; horizontal iff it is in (10, 20] or [160, 180]; unclassified otherwise |
| PregnancyTestAnalyzer.VerticalAndHorizontalDisjoint | modules/pregnancy_test_analyzer.py:53-58 | no segment is in both the vertical and the horizontal list, and together they hold at most the detected segments |
| PregnancyTestAnalyzer.LineCount | modules/pregnancy_test_analyzer.py:64 | 0 when `HoughLinesP` returned None; otherwise the number of detected segments filed as vertical, at most the number detected |
| PregnancyTestAnalyzer.RedMaskValue | modules/pregnancy_test_analyzer.py:96-106 | the uint8 sum of the two masks wraps modulo 256 but is non-zero exactly when the pixel lies in either red HSV range |
| PregnancyTestAnalyzer.ColorIntensity | modules/pregnancy_test_analyzer.py:87-109 | 0 when no lines were detected; for an image without pixels the HSV conversion at line 93 raises OpenCV's empty-image assertion before the division; otherwise the red share, which times the pixel count gives the red count and lies in [0, 1] |
| PregnancyTestAnalyzer.DeterminePregnancy | modules/pregnancy_test_analyzer.py:111-120 | a positive verdict needs at least one line, and two or more lines are always positive |
| PregnancyTestAnalyzer.DeterminePregnancyByLines | modules/pregnancy_test_analyzer.py:111-120 | two or more lines are always positive; one line is positive iff the intensity exceeds 0.01; no line is never positive |
| PregnancyTestAnalyzer.DeterminePregnancyMonotone | modules/pregnancy_test_analyzer.py:111-120 | more lines or more colour never turn a positive verdict negative |
| PregnancyTestAnalyzer.GenerateMessage | modules/pregnancy_test_analyzer.py:122-130 | the negative text iff the verdict is negative; the one-line text only for a positive verdict with fewer than two lines |
| PregnancyTestAnalyzer.MessageMatchesVerdict | modules/pregnancy_test_analyzer.py:122-130 | the two-line text iff positive with two or more lines; the one-line text iff positive with exactly one line; the negative text iff negative |
| PregnancyTestAnalyzer.CalculateConfidence | modules/pregnancy_test_analyzer.py:132-139 | for an intensity in [0, 1]: [0.7, 0.9] with two or more lines, [0.5, 0.7] with one, [0.3, 0.8] with none |
| PregnancyTestAnalyzer.ConfidenceMonotone | modules/pregnancy_test_analyzer.py:134-139 | non-decreasing in the intensity when a line was found, non-increasing when none was |
| PregnancyTestAnalyzer.FailureResult | modules/pregnancy_test_analyzer.py:78-85 | negative, confidence 0, no lines, the failure disclaimer, and a message that ends with the exception's text |
| PregnancyTestAnalyzer.Analyze | modules/pregnancy_test_analyzer.py:22-85 | an unreadable image or a raising OpenCV call gives the failure result (negative, confidence 0, no lines); an image without pixels gives the failure result with OpenCV's empty-image assertion, since `cvtColor` at line 29 rejects it; otherwise the line count is the number of vertical segments and verdict, message and confidence are those of that count and the red share, under the normal disclaimer; a positive result has a line; confidence in [0, 0.9]; with pixels but no lines detected the result is negative with confidence 0.8 |
| PregnancyTestAnalyzer.OneFaintLineIsNegativeWithOneLineConfidence | modules/pregnancy_test_analyzer.py:61-71 | one vertical line and no red gives a negative verdict that still takes its confidence, 0.5, from the one-line formula |
| UltrasoundAnalyzer.BlankIffScoreZero | modules/ultrasound_analyzer.py:121-138 | a pass scores 0 iff it raised or its text is all white space |
| UltrasoundAnalyzer.ExtractText | modules/ultrasound_analyzer.py:108-140 | returns "" iff every pass failed or read only white space; otherwise the raw text of a pass with the greatest stripped length, and the earliest such pass |
| UltrasoundAnalyzer.RewriteUnitsDropsLetters | modules/ultrasound_analyzer.py:191-193 | after the unit rewrite no w, W, d or D is left |
| UltrasoundAnalyzer.RewriteUnitsAppend | modules/ultrasound_analyzer.py:192-193 | the unit rewrite distributes over concatenation, so it acts character by character |
| UltrasoundAnalyzer.RewriteUnitsChar | modules/ultrasound_analyzer.py:192-193 | on one character the rewrite gives "주 " for w or W, "일" for d or D, and the character itself otherwise |
| UltrasoundAnalyzer.NormalizeGestationalAge | modules/ultrasound_analyzer.py:188-195 | the result is stripped; when the text has both a week and a day letter in any case, it is the stripped unit rewrite of the text and no unit letter survives; otherwise it is just the stripped text |
| UltrasoundAnalyzer.GestationalAgeIdempotent | modules/ultrasound_analyzer.py:188-195 | normalising twice is normalising once |
| UltrasoundAnalyzer.GestationalAgeExample | modules/ultrasound_analyzer.py:189-195 | "12w3d" becomes "12주 3일" |
| UltrasoundAnalyzer.NormalizeGender | modules/ultrasound_analyzer.py:197-205 | the result is "남아", "여아", or the stripped, upper-cased input |
| UltrasoundAnalyzer.MixedCaseKeysUnreachable | modules/ultrasound_analyzer.py:199-204 | the upper-cased key is never "Male" or "Female", so those two table entries can never match |
| UltrasoundAnalyzer.GenderBoyIff | modules/ultrasound_analyzer.py:199-205 | "남아" comes out iff the stripped, upper-cased input is "M", "BOY", "남" or "남아" |
| UltrasoundAnalyzer.GenderGirlIff | modules/ultrasound_analyzer.py:199-205 | "여아" comes out iff the stripped, upper-cased input is "F", "GIRL", "여" or "여아" |
| UltrasoundAnalyzer.GenderIdempotent | modules/ultrasound_analyzer.py:197-205 | normalising twice is normalising once |
| UltrasoundAnalyzer.GenderExamples | modules/ultrasound_analyzer.py:199-205 | " boy " becomes "남아", and "Male" becomes "MALE" |
| UltrasoundAnalyzer.Dashed | modules/ultrasound_analyzer.py:212-213 | no '/' or '.' is left; a text with any separator holds a '-'; a text without '/' and '.' is unchanged |
| UltrasoundAnalyzer.DatePieces | modules/ultrasound_analyzer.py:212-214 | at least one piece; the pieces joined with '-' give back the rewritten text; no piece holds any separator |
| UltrasoundAnalyzer.NormalizeDate | modules/ultrasound_analyzer.py:207-227 | a text without '-', '/' or '.' is unchanged; otherwise the result holds a '-' and no '/' or '.'; a text with separators that does not split into three pieces with a four-character first or last piece only has its separators rewritten to '-' |
| UltrasoundAnalyzer.PiecesOfDate | modules/ultrasound_analyzer.py:212-214 | three separator-free pieces joined by any separators split back into exactly those three pieces |
| UltrasoundAnalyzer.YearFirstDate | modules/ultrasound_analyzer.py:216-219 | a date whose first piece has four characters becomes year-zfill(month)-zfill(day), whatever separators it used |
| UltrasoundAnalyzer.DayFirstDate | modules/ultrasound_analyzer.py:216-222 | a date whose last piece has four characters, and whose first piece does not, is reordered to year-zfill(month)-zfill(day) |
| UltrasoundAnalyzer.YearFirstExample | modules/ultrasound_analyzer.py:216-219 | "2024/1/5" becomes "2024-01-05" |
| UltrasoundAnalyzer.DayFirstExample | modules/ultrasound_analyzer.py:220-222 | "5.1.2024" becomes "2024-01-05" |
| UltrasoundAnalyzer.NormalizeDateIdempotent | modules/ultrasound_analyzer.py:207-227 | normalising twice is normalising once, for every text |
| UltrasoundAnalyzer.IsoDateIsFixed | modules/ultrasound_analyzer.py:218-219 | a YYYY-MM-DD date is returned unchanged |
| Utils.PatternIsRun | modules/utils.py:241 | the pattern `(\d+)[주w]` matches at i with group s[i..j] iff the digit run starting at i is followed by a week mark and j is where that run ends |
| Utils.SearchWeek | modules/utils.py:241-243 | nothing is found iff no position starts a match; otherwise the value is that of the digits at the leftmost matching start |
| Utils.GetWeekNumber | modules/utils.py:235-236 | a missing or empty text gives None |
| Utils.GetWeekNumberIsLeftmostMatch | modules/utils.py:235-247 | for non-empty text, a number comes out iff the pattern matches somewhere, and it is the value of the group of the leftmost match |
| Utils.KoreanWeekExample | modules/utils.py:239-243 | "12주 3일" gives 12 |
| Utils.LetterWeekExample | modules/utils.py:239-243 | "12w3d" gives 12 |
| Utils.UpperLetterExample | modules/utils.py:241-247 | "12W3D" gives None, because the class holds only a lower-case w |
| Utils.ChartWeek | modules/utils.py:262-264 | a record contributes iff it is an ultrasound with a non-empty gestational age whose week number exists and is non-zero, and then it contributes that week number |
| Utils.Head10 | modules/utils.py:265 | `[:10]`: a prefix of the text, the whole text when it has at most ten characters, exactly ten characters otherwise |
| Utils.ProgressChart | modules/utils.py:249-268 | every charted week is positive, and every charted date has at most ten characters |
| Utils.ChartedIff | modules/utils.py:259-268 | a week is charted iff some record contributes it |
| Utils.ChartKeepsLastDate | modules/utils.py:261-266 | the date charted for a week is the first ten characters of the date of the last record of that week |
| Utils.ChartIgnoresOtherKinds | modules/utils.py:262 | appending a record that is not an ultrasound leaves the chart unchanged |
| Utils.GalleryWeek | modules/utils.py:53 | `ga.split('주')[0]` is the prefix of the text before its first '주' (the whole text when there is none) |
| Utils.FilterGallery | modules/utils.py:48-58 | identity when the filter is falsy or "전체"; otherwise exactly the records, in order, whose week text is a non-empty digit string equal to the filter; a text filter keeps nothing |
| Utils.GalleryAgreesWithChart | modules/utils.py:53-54 | when the age contains '주', a record the gallery shows under week n has week number n |
| Utils.Extension | modules/utils.py:130 | the lower-cased tail of the name that holds no dot and is preceded by a dot or starts the name, so the text after the last dot; the whole lower-cased name when it has no dot |
| Utils.ValidateImage | modules/utils.py:120-140 | valid iff the message is empty; the checks run in order: a missing file, then an oversized file, then an extension outside png/jpg/jpeg (the unsupported-format message even if the file would not decode), then a file that does not decode |
| Utils.ValidIff | modules/utils.py:120-140 | accepted iff a file is present, it is at most 10·1024·1024 bytes, its lower-cased last dot-piece is png, jpg or jpeg, and it decodes |
| Utils.UpperCaseExtensionExample | modules/utils.py:124-131 | "scan.PNG" of exactly 10 MB passes |
| Utils.DoubleExtensionExample | modules/utils.py:129-132 | "scan.png.zip" is rejected with the unsupported-format message |
| Utils.BareNameExample | modules/utils.py:129-131 | a name without a dot, "jpeg", is its own extension and passes |

## Left out

- Image processing is not modelled. This covers `cv2.imread`, `cvtColor`, `GaussianBlur`, Otsu `threshold`, `Canny`, `HoughLinesP`, `np.arctan2` and PIL's `convert`. The model receives their results as data: segments with their angle in degrees, RGB or HSV pixels, or the message of the exception they raised.
- Tesseract OCR, the image preprocessing and the regular-expression parse `_parse_information` are not modelled. OCR is an oracle from page-segmentation setting to outcome.
- PIL's `Image.open(...).verify()` in `validate_image` is a boolean input.
- The SQLite layer (`modules/database.py`), `save_uploaded_file`, `format_date`, CSV export, the Streamlit pages and the rendering half of `display_gallery` are I/O or presentation, and are not modelled.
- Floating-point rounding is not modelled; ratios and confidences are exact reals.
- The percentage text of the `details` entries (`{ratio:.3%}`) is not modelled; `details` keeps the numbers.
- PregnancyTestAnalyzer.ColorIntensity: the text of OpenCV's empty-image error is modelled as its assertion part only. The real message also names the OpenCV version and source file, which vary between builds.
- Utils.ProgressChart: a Python dict keeps insertion order, and an overwritten week keeps its first position. The model's `map` has no order. Nothing in the code reads the order.
- StripApp.OpencvLineAnalysis: only the OpenCV calls can raise in the precise path, so the fallback is modelled as a failed detection. It is not a general exception.
- UltrasoundAnalyzer.NormalizeGestationalAge: `lower()` is modelled on ASCII letters only. Python also lower-cases other scripts, which cannot add a `w` or a `d`.
- UltrasoundAnalyzer.NormalizeGender: `upper()` is modelled on ASCII letters only. Python also maps non-ASCII letters, such as "ß" to "SS".
- Utils.SearchWeek: `\d` and `int()` are modelled on ASCII digits only. Python also accepts other Unicode decimal digits.
- Utils.GetWeekNumber: from Python 3.11 on, `int()` raises `ValueError` on a digit string longer than 4300 characters, and the `except` then makes the result None. The model returns the number instead. The integer string-conversion limit is not modelled.
- Utils.FilterGallery: `isdigit()` is modelled on ASCII digits only. Filter values that are neither `None`, an `int` nor a `str` are not modelled.
- Utils.ValidateImage: `lower()` on the extension is modelled on ASCII letters only.

=== FILE: builtins.dfy ===
/** Python values and built-ins the analysis code relies on: values that may be
    `None`, calls that may raise, and the numeric built-ins `min`, `max` and
    `abs` over real numbers (floating-point rounding is not modelled). */
module Builtins {

  /** A Python value that may be `None`. */
  datatype Option<+T> = None | Some(value: T)

  /** The outcome of a Python call that either returns or raises; `error` is
      the exception's `str()`. */
  datatype Result<+T> = Ok(value: T) | Raised(error: string)

  /** Python's `min(a, b)`. */
  function Min(a: real, b: real): (r: real)
    ensures r <= a && r <= b
    ensures r == a || r == b
  {
    if b < a then b else a
  }

  /** Python's `max(a, b)` on numbers (NaN is handled by the callers). */
  function Max(a: real, b: real): (r: real)
    ensures r >= a && r >= b
    ensures r == a || r == b
  {
    if b > a then b else a
  }

  /** Python's `abs` on a real. */
  function Abs(x: real): (r: real)
    ensures r >= 0.0
    ensures r == x || r == -x
  {
    if x < 0.0 then -x else x
  }

  /** A part over a positive whole is a fraction in [0, 1]. */
  lemma FractionBounds(part: real, whole: real)
    requires 0.0 <= part <= whole && whole > 0.0
    ensures 0.0 <= part / whole <= 1.0
    ensures part / whole * whole == part
  {
  }
}

=== FILE: hough.dfy ===
/** Line segments as OpenCV's probabilistic Hough transform reports them.
    The image processing (`cvtColor`, `GaussianBlur`, Otsu `threshold`,
    `Canny`, `HoughLinesP`) and the `np.arctan2` call are foreign: the model
    receives their results as data. */
module Hough {
  import opened Builtins

  /** One detected segment: its end points and the value of
      `np.arctan2(y2 - y1, x2 - x1) * 180 / np.pi` computed for it. */
  datatype Segment = Segment(x1: int, y1: int, x2: int, y2: int, degrees: real)

  /** What the detection stage of an analysis produced: an OpenCV call
      raised (with its message), or `HoughLinesP` returned `None` or an
      array of segments. */
  datatype Detection = DetectionFailed(reason: string) | Detected(lines: Option<seq<Segment>>)
}

=== FILE: pregnancy_test_analyzer.dfy ===
/** The analyzer class behind the OpenCV test-strip page: segments from the
    Hough transform are sorted into vertical and horizontal by angle, the
    red share of the HSV image is measured, and a verdict, message and
    confidence are derived from the vertical-line count and that share. */
module PregnancyTestAnalyzer {
  import opened Builtins
  import opened Seqs
  import opened Hough

  /** How `analyze` files one segment. */
  datatype SegmentClass = Vertical | Horizontal | Unclassified

  /** The angle test on `|arctan2|` in degrees: [80, 100] or [-10, 10] is
      vertical; otherwise [0, 20] or [160, 180] is horizontal. */
  function ClassifyAngle(degrees: real): (c: SegmentClass)
    ensures c == Horizontal ==> 10.0 < Abs(degrees)
    ensures Abs(degrees) > 180.0 ==> c == Unclassified
  {
    var angle := Abs(degrees);
    if (80.0 <= angle <= 100.0) || (-10.0 <= angle <= 10.0) then Vertical
    else if (0.0 <= angle <= 20.0) || (160.0 <= angle <= 180.0) then Horizontal
    else Unclassified
  }

  /** The bands the test really carves out of [0, 180]: the 0-10 degree band
      (geometrically horizontal) is filed as vertical, which leaves only
      (10, 20] and [160, 180] for horizontal. */
  lemma AngleBands(degrees: real)
    requires -180.0 <= degrees <= 180.0
    ensures ClassifyAngle(degrees) == Vertical <==> Abs(degrees) <= 10.0 || 80.0 <= Abs(degrees) <= 100.0
    ensures ClassifyAngle(degrees) == Horizontal <==> 10.0 < Abs(degrees) <= 20.0 || 160.0 <= Abs(degrees)
    ensures ClassifyAngle(degrees) == Unclassified <==> 20.0 < Abs(degrees) < 80.0 || 100.0 < Abs(degrees) < 160.0
  {
  }

  predicate IsVertical(s: Segment) {
    ClassifyAngle(s.degrees) == Vertical
  }

  predicate IsHorizontal(s: Segment) {
    ClassifyAngle(s.degrees) == Horizontal
  }

  /** `vertical_lines`, in detection order; empty when `HoughLinesP` found nothing. */
  function VerticalLines(lines: Option<seq<Segment>>): seq<Segment>
  {
    if lines.None? then [] else Filter(lines.value, IsVertical)
  }

  /** `horizontal_lines` (collected, never used in the verdict). */
  function HorizontalLines(lines: Option<seq<Segment>>): seq<Segment>
  {
    if lines.None? then [] else Filter(lines.value, IsHorizontal)
  }

  /** `line_count`: the number of vertical lines, 0 when there are no lines. */
  function LineCount(lines: Option<seq<Segment>>): (n: nat)
    ensures lines.None? ==> n == 0
    ensures lines.Some? ==> n == Count(lines.value, IsVertical) && n <= |lines.value|
  {
    if lines.None? then 0 else |VerticalLines(lines)|
  }

  /** The two lists never share a segment, so together they hold at most
      the detected segments. */
  lemma VerticalAndHorizontalDisjoint(lines: Option<seq<Segment>>)
    ensures forall s :: s in VerticalLines(lines) ==> s !in HorizontalLines(lines)
    ensures |VerticalLines(lines)| + |HorizontalLines(lines)| <= (if lines.Some? then |lines.value| else 0)
  {
    if lines.Some? {
      CountDisjoint(lines.value, IsVertical, IsHorizontal);
    }
  }

  /** One pixel of `cv2.cvtColor(image, cv2.COLOR_BGR2HSV)`; OpenCV's 8-bit
      hue runs over 0..180. */
  datatype Hsv = Hsv(h: int, s: int, v: int)

  /** `cv2.inRange`: every channel within its inclusive bounds. */
  predicate InRange(p: Hsv, lower: Hsv, upper: Hsv) {
    lower.h <= p.h <= upper.h && lower.s <= p.s <= upper.s && lower.v <= p.v <= upper.v
  }

  const LowerRed1: Hsv := Hsv(0, 50, 50)
  const UpperRed1: Hsv := Hsv(10, 255, 255)
  const LowerRed2: Hsv := Hsv(170, 50, 50)
  const UpperRed2: Hsv := Hsv(180, 255, 255)

  /** One element of `red_mask = mask1 + mask2`: each mask is 255 or 0 and
      the uint8 sum wraps modulo 256. The wrap never cancels a hit: the mask
      is non-zero exactly when the pixel lies in either red hue range. */
  function RedMaskValue(p: Hsv): (m: nat)
    ensures m < 256
    ensures m != 0 <==> InRange(p, LowerRed1, UpperRed1) || InRange(p, LowerRed2, UpperRed2)
  {
    var mask1 := if InRange(p, LowerRed1, UpperRed1) then 255 else 0;
    var mask2 := if InRange(p, LowerRed2, UpperRed2) then 255 else 0;
    (mask1 + mask2) % 256
  }

  /** A pixel `cv2.countNonZero(red_mask)` counts. */
  predicate IsRedPixel(p: Hsv) {
    RedMaskValue(p) != 0
  }

  /** The assertion OpenCV reports when `cv2.cvtColor` is given an image
      without pixels. */
  const EmptyImageError: string := "(-215:Assertion failed) !_src.empty() in function 'cvtColor'"

  /** `_analyze_color_intensity`: 0 when `HoughLinesP` found nothing;
      otherwise the share of red pixels. An image without pixels never
      reaches the division: the HSV conversion before it rejects it. */
  function ColorIntensity(lines: Option<seq<Segment>>, hsv: seq<Hsv>): (r: Result<real>)
    ensures lines.None? ==> r == Ok(0.0)
    ensures lines.Some? && |hsv| == 0 ==> r == Raised(EmptyImageError)
    ensures lines.Some? && |hsv| > 0 ==> r.Ok? && r.value * (|hsv| as real) == Count(hsv, IsRedPixel) as real
    ensures r.Ok? ==> 0.0 <= r.value <= 1.0
  {
    if lines.None? then Ok(0.0)
    else if |hsv| == 0 then Raised(EmptyImageError)
    else
      FractionBounds(Count(hsv, IsRedPixel) as real, |hsv| as real);
      Ok(Count(hsv, IsRedPixel) as real / |hsv| as real)
  }

  /** `_determine_pregnancy`. */
  function DeterminePregnancy(lineCount: nat, colorIntensity: real): (p: bool)
    ensures p ==> lineCount >= 1
    ensures lineCount >= 2 ==> p
  {
    if lineCount >= 2 then true
    else if lineCount == 1 && colorIntensity > 0.01 then true
    else false
  }

  /** The verdict by line count: two or more lines are always positive, one
      line is positive exactly above 1% red, no line is never positive. */
  lemma DeterminePregnancyByLines(lineCount: nat, colorIntensity: real)
    ensures lineCount >= 2 ==> DeterminePregnancy(lineCount, colorIntensity)
    ensures lineCount == 1 ==> (DeterminePregnancy(lineCount, colorIntensity) <==> colorIntensity > 0.01)
    ensures lineCount == 0 ==> !DeterminePregnancy(lineCount, colorIntensity)
  {
  }

  /** More lines or more red never turn a positive verdict negative. */
  lemma DeterminePregnancyMonotone(n1: nat, n2: nat, c1: real, c2: real)
    requires n1 <= n2 && c1 <= c2
    ensures DeterminePregnancy(n1, c1) ==> DeterminePregnancy(n2, c2)
  {
  }

  const TwoLineMessage: string := "임신으로 추정됩니다 (2개 선 감지)"
  const OneLineMessage: string := "임신 가능성이 있습니다 (1개 선 감지)"
  const NegativeMessage: string := "비임신으로 추정됩니다"

  /** `_generate_message`. */
  function GenerateMessage(isPregnant: bool, lineCount: nat): (m: string)
    ensures m == NegativeMessage <==> !isPregnant
    ensures m == OneLineMessage ==> isPregnant && lineCount < 2
  {
    if isPregnant then
      if lineCount >= 2 then TwoLineMessage else OneLineMessage
    else NegativeMessage
  }

  /** Each message stands for one kind of result, and the one-line text is
      only ever produced for a verdict that found exactly one line. */
  lemma MessageMatchesVerdict(lineCount: nat, colorIntensity: real)
    ensures var p := DeterminePregnancy(lineCount, colorIntensity);
      && (GenerateMessage(p, lineCount) == TwoLineMessage <==> p && lineCount >= 2)
      && (GenerateMessage(p, lineCount) == OneLineMessage <==> p && lineCount == 1)
      && (GenerateMessage(p, lineCount) == NegativeMessage <==> !p)
  {
  }

  /** `_calculate_confidence`: chosen by line count alone, whatever the
      verdict. For a red share in [0, 1] it lies in [0.7, 0.9] with two or
      more lines, [0.5, 0.7] with one, [0.3, 0.8] with none. */
  function CalculateConfidence(lineCount: nat, colorIntensity: real): (c: real)
    ensures 0.0 <= colorIntensity <= 1.0 && lineCount >= 2 ==> 0.7 <= c <= 0.9
    ensures 0.0 <= colorIntensity <= 1.0 && lineCount == 1 ==> 0.5 <= c <= 0.7
    ensures 0.0 <= colorIntensity <= 1.0 && lineCount == 0 ==> 0.3 <= c <= 0.8
  {
    if lineCount >= 2 then Min(0.9, 0.7 + colorIntensity * 10.0)
    else if lineCount == 1 then Min(0.7, 0.5 + colorIntensity * 10.0)
    else Max(0.3, 0.8 - colorIntensity * 5.0)
  }

  /** Confidence grows with the red share when a line was found and shrinks
      with it when none was. */
  lemma ConfidenceMonotone(lineCount: nat, c1: real, c2: real)
    requires c1 <= c2
    ensures lineCount >= 1 ==> CalculateConfidence(lineCount, c1) <= CalculateConfidence(lineCount, c2)
    ensures lineCount == 0 ==> CalculateConfidence(lineCount, c1) >= CalculateConfidence(lineCount, c2)
  {
  }

  /** The dictionary `analyze` returns. */
  datatype AnalysisResult = AnalysisResult(
    isPregnant: bool,
    message: string,
    confidence: real,
    lineCount: nat,
    disclaimer: string)

  const Disclaimer: string := "조명이나 이미지 품질에 따라 오차가 있을 수 있습니다. 정확한 진단은 의료진에게 문의하세요."
  const FailureDisclaimer: string := "이미지 분석에 실패했습니다. 다른 이미지로 시도해보세요."
  const UnreadableImage: string := "이미지를 읽을 수 없습니다."

  /** The result of the `except` branch for an exception whose text is `error`. */
  function FailureResult(error: string): (r: AnalysisResult)
    ensures !r.isPregnant && r.confidence == 0.0 && r.lineCount == 0
    ensures r.disclaimer == FailureDisclaimer
    ensures |error| < |r.message| && r.message[|r.message| - |error|..] == error
  {
    AnalysisResult(false, "분석 중 오류 발생: " + error, 0.0, 0, FailureDisclaimer)
  }

  /** What `analyze` gets from the image file: `cv2.imread` returned `None`,
      or the image decoded, with the outcome of edge and line detection and
      the image's HSV pixels. */
  datatype TestPhoto = Unreadable | Decoded(detection: Detection, hsv: seq<Hsv>)

  /** `analyze`. Any exception (an unreadable file, a failing OpenCV call,
      an image without pixels, which the first `cvtColor` rejects) yields a negative result with confidence 0 and no
      lines; otherwise the verdict, message and confidence come from the
      vertical-line count and the red share. */
  function Analyze(photo: TestPhoto): (r: AnalysisResult)
    ensures photo.Unreadable? ==> r == FailureResult(UnreadableImage)
    ensures photo.Decoded? && photo.detection.DetectionFailed? ==> r == FailureResult(photo.detection.reason)
    ensures r.disclaimer == FailureDisclaimer ==> !r.isPregnant && r.confidence == 0.0 && r.lineCount == 0
    ensures r.isPregnant ==> r.lineCount >= 1 && r.disclaimer == Disclaimer
    ensures 0.0 <= r.confidence <= 0.9
    ensures r.disclaimer == Disclaimer ==> 0.3 <= r.confidence
    ensures r.disclaimer == Disclaimer && r.lineCount == 1 ==> 0.5 <= r.confidence <= 0.7
    ensures photo.Decoded? && photo.detection.Detected? && photo.detection.lines.None? && |photo.hsv| > 0 ==>
      !r.isPregnant && r.lineCount == 0 && r.confidence == 0.8 && r.disclaimer == Disclaimer
    ensures photo.Decoded? && |photo.hsv| == 0 && photo.detection.Detected? ==>
      r == FailureResult(EmptyImageError)
    ensures photo.Decoded? && photo.detection.Detected? && |photo.hsv| > 0 ==>
      var intensity := ColorIntensity(photo.detection.lines, photo.hsv).value;
      && r.disclaimer == Disclaimer
      && r.lineCount == |VerticalLines(photo.detection.lines)|
      && r.isPregnant == DeterminePregnancy(r.lineCount, intensity)
      && r.message == GenerateMessage(r.isPregnant, r.lineCount)
      && r.confidence == CalculateConfidence(r.lineCount, intensity)
  {
    match photo
    case Unreadable => FailureResult(UnreadableImage)
    case Decoded(DetectionFailed(reason), _) => FailureResult(reason)
    case Decoded(Detected(lines), hsv) =>
      if |hsv| == 0 then FailureResult(EmptyImageError)
      else
        match ColorIntensity(lines, hsv)
        case Raised(error) => FailureResult(error)
        case Ok(intensity) =>
          var lineCount := LineCount(lines);
          var isPregnant := DeterminePregnancy(lineCount, intensity);
          AnalysisResult(
            isPregnant,
            GenerateMessage(isPregnant, lineCount),
            CalculateConfidence(lineCount, intensity),
            lineCount,
            Disclaimer)
  }

  /** A strip with one vertical line and no red at all is called negative,
      yet its confidence comes from the one-line formula, not from the
      verdict. */
  lemma OneFaintLineIsNegativeWithOneLineConfidence()
    ensures var r := Analyze(Decoded(Detected(Some([Segment(5, 0, 5, 40, 90.0)])), [Hsv(90, 10, 200)]));
      && !r.isPregnant
      && r.lineCount == 1
      && r.confidence == 0.5
      && r.message == NegativeMessage
  {
    var seg := Segment(5, 0, 5, 40, 90.0);
    assert Filter([seg], IsVertical) == [seg] by {
      assert [seg][..0] == [];
    }
    assert Count([Hsv(90, 10, 200)], IsRedPixel) == 0 by {
      assert [Hsv(90, 10, 200)][..0] == [];
    }
  }
}

=== FILE: pystr.dfy ===
/** The Python `str` methods the analysis code calls, over strings of Unicode
    code points: `strip`, `upper`, `lower`, `replace` with a one-character
    pattern, `split` and `join` with a one-character separator, `zfill`,
    `isdigit`, `int()` of a digit string and `str()` of a natural number.
    Case mapping and digit recognition cover ASCII only. */
module PyStr {

  /** The characters for which Python's `str.isspace()` holds. */
  predicate IsSpace(c: char) {
    || c == ' '
    || ('\t' <= c <= '\r')
    || ('\U{1C}' <= c <= '\U{1F}')
    || c == '\U{85}' || c == '\U{A0}' || c == '\U{1680}'
    || ('\U{2000}' <= c <= '\U{200A}')
    || c == '\U{2028}' || c == '\U{2029}' || c == '\U{202F}' || c == '\U{205F}' || c == '\U{3000}'
  }

  /** A string that `strip()` leaves alone: empty, or no white space at either end. */
  predicate IsStripped(s: string) {
    |s| == 0 || (!IsSpace(s[0]) && !IsSpace(s[|s| - 1]))
  }

  /** `s.strip()`: white space removed from both ends, nothing else touched. */
  function Strip(s: string): (r: string)
    ensures |r| <= |s|
    ensures IsStripped(r)
    ensures IsStripped(s) ==> r == s
    decreases |s|
  {
    if |s| > 0 && IsSpace(s[0]) then Strip(s[1..])
    else if |s| > 0 && IsSpace(s[|s| - 1]) then Strip(s[..|s| - 1])
    else s
  }

  /** Stripping keeps a contiguous piece of the text: `Strip(s)` is `s[i..i + |Strip(s)|]`
      for some start `i`, and everything around it is white space. */
  lemma {:induction false} StripSlice(s: string) returns (i: nat)
    ensures i + |Strip(s)| <= |s| && Strip(s) == s[i..i + |Strip(s)|]
    ensures forall k :: 0 <= k < i ==> IsSpace(s[k])
    ensures forall k :: i + |Strip(s)| <= k < |s| ==> IsSpace(s[k])
    decreases |s|
  {
    if |s| > 0 && IsSpace(s[0]) {
      var j := StripSlice(s[1..]);
      i := j + 1;
      forall k | i + |Strip(s)| <= k < |s| ensures IsSpace(s[k]) {
        assert s[k] == s[1..][k - 1];
      }
      forall k | 1 <= k < i ensures IsSpace(s[k]) {
        assert s[k] == s[1..][k - 1];
      }
    } else if |s| > 0 && IsSpace(s[|s| - 1]) {
      i := StripSlice(s[..|s| - 1]);
      forall k | i + |Strip(s)| <= k < |s| - 1 ensures IsSpace(s[k]) {
        assert s[k] == s[..|s| - 1][k];
      }
    } else {
      i := 0;
    }
  }

  /** Stripping only removes characters. */
  lemma StripMembers(s: string)
    ensures forall c :: c in Strip(s) ==> c in s
  {
    var i := StripSlice(s);
    var r := Strip(s);
    forall c | c in r ensures c in s {
      var k :| 0 <= k < |r| && r[k] == c;
      assert c == s[i + k];
    }
  }

  /** Stripping leaves nothing exactly when the text is all white space. */
  lemma StripAllSpace(s: string)
    ensures Strip(s) == [] <==> forall k :: 0 <= k < |s| ==> IsSpace(s[k])
  {
    var i := StripSlice(s);
  }

  /** ASCII upper-casing of one character (`str.upper()` on ASCII). */
  function UpperChar(c: char): (u: char)
    ensures 'a' <= c <= 'z' ==> u as int == c as int - 32
    ensures !('a' <= c <= 'z') ==> u == c
  {
    if 'a' <= c <= 'z' then (c as int - 32) as char else c
  }

  /** ASCII lower-casing of one character (`str.lower()` on ASCII). */
  function LowerChar(c: char): (l: char)
    ensures 'A' <= c <= 'Z' ==> l as int == c as int + 32
    ensures !('A' <= c <= 'Z') ==> l == c
  {
    if 'A' <= c <= 'Z' then (c as int + 32) as char else c
  }

  /** `s.upper()`, character by character. */
  function Upper(s: string): (r: string)
    ensures |r| == |s|
    ensures forall k :: 0 <= k < |s| ==> r[k] == UpperChar(s[k])
  {
    seq(|s|, k requires 0 <= k < |s| => UpperChar(s[k]))
  }

  /** `s.lower()`, character by character. */
  function Lower(s: string): (r: string)
    ensures |r| == |s|
    ensures forall k :: 0 <= k < |s| ==> r[k] == LowerChar(s[k])
  {
    seq(|s|, k requires 0 <= k < |s| => LowerChar(s[k]))
  }

  /** Upper-casing neither creates nor removes white space, so it commutes
      with `strip()` on the ends, and doing it twice changes nothing. */
  lemma UpperKeepsStripped(s: string)
    requires IsStripped(s)
    ensures IsStripped(Upper(s))
    ensures Upper(Upper(s)) == Upper(s)
  {
    assert Upper(Upper(s)) == Upper(s);
  }

  /** A lower-case letter occurs in `s.lower()` exactly when it occurs in `s`
      in either case. */
  lemma LowerContains(s: string, c: char)
    requires 'a' <= c <= 'z'
    ensures c in Lower(s) <==> c in s || UpperChar(c) in s
  {
    var low := Lower(s);
    if c in low {
      var k :| 0 <= k < |low| && low[k] == c;
      assert s[k] == c || s[k] == UpperChar(c);
    }
    if c in s {
      var k :| 0 <= k < |s| && s[k] == c;
      assert low[k] == c;
    }
    if UpperChar(c) in s {
      var k :| 0 <= k < |s| && s[k] == UpperChar(c);
      assert low[k] == c;
    }
  }

  /** `s.replace(pat, repl)` for a one-character pattern: every occurrence of
      `pat` becomes `repl`, every other character stays where it was. */
  function Replace(s: string, pat: char, repl: string): (r: string)
    ensures pat !in s ==> r == s
  {
    if |s| == 0 then ""
    else (if s[0] == pat then repl else [s[0]]) + Replace(s[1..], pat, repl)
  }

  /** Which characters a replacement can and must contain. */
  lemma {:induction false} ReplaceMembers(s: string, pat: char, repl: string)
    ensures forall c :: c in Replace(s, pat, repl) ==> (c in s && c != pat) || c in repl
    ensures forall c :: c in s && c != pat ==> c in Replace(s, pat, repl)
    ensures pat in s ==> forall c :: c in repl ==> c in Replace(s, pat, repl)
    ensures pat !in repl ==> pat !in Replace(s, pat, repl)
    decreases |s|
  {
    if |s| > 0 {
      ReplaceMembers(s[1..], pat, repl);
      assert forall c :: c in s <==> c == s[0] || c in s[1..];
    }
  }

  /** Replacing in a concatenation replaces in each half. */
  lemma {:induction false} ReplaceAppend(a: string, b: string, pat: char, repl: string)
    ensures Replace(a + b, pat, repl) == Replace(a, pat, repl) + Replace(b, pat, repl)
    decreases |a|
  {
    if |a| == 0 {
      assert a + b == b;
    } else {
      assert (a + b)[0] == a[0];
      assert (a + b)[1..] == a[1..] + b;
      ReplaceAppend(a[1..], b, pat, repl);
    }
  }

  /** `sep.join(parts)`. */
  function Join(parts: seq<string>, sep: char): string
  {
    if |parts| == 0 then ""
    else if |parts| == 1 then parts[0]
    else parts[0] + [sep] + Join(parts[1..], sep)
  }

  /** `s.split(sep)`: the pieces between separators, at least one, none
      holding the separator, and joining them back gives `s`. */
  function Split(s: string, sep: char): (parts: seq<string>)
    ensures |parts| >= 1
    ensures forall k :: 0 <= k < |parts| ==> sep !in parts[k]
    ensures Join(parts, sep) == s
    decreases |s|
  {
    if |s| == 0 then [""]
    else
      var rest := Split(s[1..], sep);
      if s[0] == sep then
        assert ([""] + rest)[1..] == rest;
        [""] + rest
      else
        var parts := [[s[0]] + rest[0]] + rest[1..];
        assert parts[1..] == rest[1..];
        assert Join(parts, sep) == s by {
          if |rest| > 1 {
            assert Join(rest, sep) == rest[0] + [sep] + Join(rest[1..], sep);
          }
        }
        parts
  }

  /** A piece without the separator, followed by a separator, splits off as
      the first piece. */
  lemma {:induction false} SplitAfterPiece(a: string, sep: char, b: string)
    requires sep !in a
    ensures Split(a + [sep] + b, sep) == [a] + Split(b, sep)
    decreases |a|
  {
    var s := a + [sep] + b;
    if |a| == 0 {
      assert s[1..] == b;
    } else {
      assert s[1..] == a[1..] + [sep] + b;
      SplitAfterPiece(a[1..], sep, b);
      assert [a[0]] + a[1..] == a;
    }
  }

  /** A string without the separator splits into itself alone. */
  lemma {:induction false} SplitWithoutSep(a: string, sep: char)
    requires sep !in a
    ensures Split(a, sep) == [a]
    decreases |a|
  {
    if |a| > 0 {
      SplitWithoutSep(a[1..], sep);
      assert [a[0]] + a[1..] == a;
    }
  }

  /** `split` undoes `join` when no piece holds the separator. */
  lemma {:induction false} SplitOfJoin(parts: seq<string>, sep: char)
    requires |parts| >= 1
    requires forall k :: 0 <= k < |parts| ==> sep !in parts[k]
    ensures Split(Join(parts, sep), sep) == parts
    decreases |parts|
  {
    if |parts| == 1 {
      SplitWithoutSep(parts[0], sep);
    } else {
      SplitOfJoin(parts[1..], sep);
      SplitAfterPiece(parts[0], sep, Join(parts[1..], sep));
      assert [parts[0]] + parts[1..] == parts;
    }
  }

  /** A character of any piece is a character of the joined string. */
  lemma {:induction false} PieceInJoin(parts: seq<string>, sep: char, k: nat, c: char)
    requires k < |parts| && c in parts[k]
    ensures c in Join(parts, sep)
    decreases k
  {
    if k > 0 {
      PieceInJoin(parts[1..], sep, k - 1, c);
    }
  }

  /** Joining at least two pieces puts the last piece after the last separator. */
  lemma {:induction false} JoinLast(parts: seq<string>, sep: char)
    requires |parts| >= 2
    ensures Join(parts, sep) == Join(parts[..|parts| - 1], sep) + [sep] + parts[|parts| - 1]
    decreases |parts|
  {
    if |parts| > 2 {
      JoinLast(parts[1..], sep);
      assert parts[1..][..|parts| - 2] == parts[1..|parts| - 1];
      assert parts[..|parts| - 1][1..] == parts[1..|parts| - 1];
    }
  }

  /** `s.split(sep)[-1]`: the text after the last separator, or all of `s`
      when there is none. */
  function LastPiece(s: string, sep: char): (r: string)
    ensures |r| <= |s| && r == s[|s| - |r|..]
    ensures sep !in r
    ensures |r| < |s| ==> s[|s| - |r| - 1] == sep
    ensures sep !in s ==> r == s
  {
    var parts := Split(s, sep);
    var last := parts[|parts| - 1];
    if |parts| == 1 then
      last
    else
      JoinLast(parts, sep);
      last
  }

  /** `s.zfill(width)`: left-padded with '0' to `width`, the padding going
      after a leading sign character. */
  function ZFill(s: string, width: nat): (r: string)
    ensures |r| == if |s| >= width then |s| else width
    ensures forall c :: c in r ==> c in s || c == '0'
    ensures |s| >= width ==> r == s
  {
    if |s| >= width then s
    else
      var zeros := seq(width - |s|, _ => '0');
      if |s| > 0 && (s[0] == '+' || s[0] == '-') then [s[0]] + zeros + s[1..]
      else zeros + s
  }

  /** An ASCII decimal digit. */
  predicate IsDigit(c: char) {
    '0' <= c <= '9'
  }

  /** Every character is an ASCII digit (the empty string included). */
  predicate AllDigits(s: string) {
    forall k :: 0 <= k < |s| ==> IsDigit(s[k])
  }

  /** `s.isdigit()` on ASCII text: non-empty and all digits. */
  predicate IsDigitString(s: string) {
    |s| > 0 && AllDigits(s)
  }

  /** `int(s)` of a string of digits (0 for the empty string). */
  function DigitsValue(s: string): nat
    requires AllDigits(s)
  {
    if |s| == 0 then 0
    else DigitsValue(s[..|s| - 1]) * 10 + (s[|s| - 1] as int - '0' as int)
  }

  /** The digit character for 0..9. */
  function DigitChar(d: nat): (c: char)
    requires d < 10
    ensures IsDigit(c) && c as int - '0' as int == d
  {
    ('0' as int + d) as char
  }

  /** `str(n)`: the decimal digits of `n`, without leading zeros, which
      `int()` reads back as `n`. */
  function Decimal(n: nat): (r: string)
    ensures IsDigitString(r)
    ensures DigitsValue(r) == n
    ensures r[0] == '0' ==> r == "0"
  {
    if n < 10 then [DigitChar(n)]
    else
      var front := Decimal(n / 10);
      var r := front + [DigitChar(n % 10)];
      assert r[..|r| - 1] == front;
      r
  }
}

=== FILE: seqs.dfy ===
/** Counting and filtering sequences by a predicate: the shape of the
    `np.sum(mask)`, `len([...])` and list-building loops in the analysis code. */
module Seqs {

  /** How many elements of `s` satisfy `p`. */
  function Count<T>(s: seq<T>, p: T -> bool): (n: nat)
    ensures n <= |s|
  {
    if |s| == 0 then 0 else Count(s[..|s| - 1], p) + (if p(s[|s| - 1]) then 1 else 0)
  }

  /** The elements of `s` that satisfy `p`, in their original order. */
  function Filter<T(!new)>(s: seq<T>, p: T -> bool): (r: seq<T>)
    ensures |r| == Count(s, p)
    ensures forall k :: 0 <= k < |r| ==> p(r[k])
    ensures forall x :: x in r <==> x in s && p(x)
  {
    if |s| == 0 then []
    else
      var front := Filter(s[..|s| - 1], p);
      var last := s[|s| - 1];
      assert forall x :: x in s <==> x in s[..|s| - 1] || x == last;
      if p(last) then front + [last] else front
  }

  /** Two predicates that never hold together count no more than the
      sequence's length between them. */
  lemma {:induction false} CountDisjoint<T>(s: seq<T>, p: T -> bool, q: T -> bool)
    requires forall x :: !(p(x) && q(x))
    ensures Count(s, p) + Count(s, q) <= |s|
    decreases |s|
  {
    if |s| > 0 {
      CountDisjoint(s[..|s| - 1], p, q);
    }
  }

  /** Filtering a sequence extended by one element. */
  lemma FilterSnoc<T(!new)>(s: seq<T>, x: T, p: T -> bool)
    ensures Filter(s + [x], p) == Filter(s, p) + (if p(x) then [x] else [])
  {
    assert (s + [x])[..|s|] == s;
  }
}

=== FILE: strip_app.dfy ===
/** The verdict logic of the Streamlit test-strip page: the fast colour-only
    analysis and the precise analysis that adds Hough line detection. Pixels
    arrive as RGB triples; line segments arrive from the detector as data. */
module StripApp {
  import opened Builtins
  import opened Seqs
  import opened Hough
  import PyStr

  /** One pixel of `np.array(image.convert('RGB'))`. */
  datatype Rgb = Rgb(r: int, g: int, b: int)

  /** The red mask: strong red, weak green and blue. */
  predicate IsRed(p: Rgb) {
    p.r > 120 && p.g < 80 && p.b < 80
  }

  /** The pink mask: strong red, mid-range green and blue. */
  predicate IsPink(p: Rgb) {
    p.r > 150 && p.g > 100 && p.g < 180 && p.b > 100 && p.b < 180
  }

  /** A pixel either mask selects. */
  predicate IsColored(p: Rgb) {
    IsRed(p) || IsPink(p)
  }

  /** No pixel is both red and pink: the red mask wants green below 80, the
      pink mask green above 100. */
  lemma MasksDisjoint(p: Rgb)
    ensures !(IsRed(p) && IsPink(p))
  {
  }

  /** Because the masks are disjoint, adding their two sums counts every
      red-or-pink pixel exactly once. */
  lemma {:induction false} MaskSumIsColoredCount(pixels: seq<Rgb>)
    ensures Count(pixels, IsRed) + Count(pixels, IsPink) == Count(pixels, IsColored)
    decreases |pixels|
  {
    if |pixels| > 0 {
      MaskSumIsColoredCount(pixels[..|pixels| - 1]);
      MasksDisjoint(pixels[|pixels| - 1]);
    }
  }

  /** `np.sum(red_mask) + np.sum(pink_mask)`: the number of red-or-pink
      pixels, hence never more than the number of pixels. */
  function ColoredPixels(pixels: seq<Rgb>): (n: nat)
    ensures n == Count(pixels, IsColored)
    ensures n <= |pixels|
  {
    MaskSumIsColoredCount(pixels);
    Count(pixels, IsRed) + Count(pixels, IsPink)
  }

  /** A numpy float64 quotient of two pixel counts: a number, or NaN when
      the image has no pixels (numpy's 0 / 0 warns and yields NaN). */
  datatype Ratio = NaN | Num(value: real)

  /** `x > t` on a numpy float; every comparison with NaN is false. */
  predicate Exceeds(x: Ratio, t: real) {
    x.Num? && x.value > t
  }

  /** A ratio that a pixel count over the image size can produce. */
  predicate IsPixelFraction(x: Ratio) {
    x.Num? ==> 0.0 <= x.value <= 1.0
  }

  /** `colored_ratio = colored_pixels / total_pixels`, where the total is
      `height * width`, the number of pixels. */
  function ColoredRatio(pixels: seq<Rgb>): (x: Ratio)
    ensures x.NaN? <==> |pixels| == 0
    ensures IsPixelFraction(x)
    ensures x.Num? ==> x.value * (|pixels| as real) == ColoredPixels(pixels) as real
  {
    if |pixels| == 0 then NaN
    else
      FractionBounds(ColoredPixels(pixels) as real, |pixels| as real);
      Num(ColoredPixels(pixels) as real / |pixels| as real)
  }

  /** What the `details` caption of a result reports (its percentage
      formatting is not modelled). */
  datatype Details = ColorDetails(ratio: Ratio) | LineDetails(lineCount: nat, ratio: Ratio)

  /** The result dictionary both analyses return. */
  datatype Verdict = Verdict(
    isPregnant: bool,
    message: string,
    confidence: real,
    analysisMethod: string,
    details: Details,
    disclaimer: string)

  const PregnantMessage: string := "임신으로 추정됩니다"
  const NotPregnantMessage: string := "비임신으로 추정됩니다"
  const ColorMethod: string := "색상 분석"
  const ColorDisclaimer: string := "간단한 색상 분석 결과입니다. 정확한 진단은 의료진에게 문의하세요."
  const LineMethod: string := "선 감지 + 색상 분석"
  const LineDisclaimer: string := "OpenCV 선 감지와 색상 분석을 결합한 결과입니다. 정확한 진단은 의료진에게 문의하세요."

  /** The fast analysis: positive exactly when more than 0.8% of the pixels
      are red or pink, with a confidence that rises with the ratio but stays
      in (0.64, 0.75]; a negative result always carries confidence 0.65. */
  function SimpleColorAnalysis(pixels: seq<Rgb>): (v: Verdict)
    ensures v.isPregnant <==> Exceeds(ColoredRatio(pixels), 0.008)
    ensures v.isPregnant ==> 0.64 < v.confidence <= 0.75 && v.message == PregnantMessage
    ensures !v.isPregnant ==> v.confidence == 0.65 && v.message == NotPregnantMessage
    ensures v.analysisMethod == ColorMethod && v.details == ColorDetails(ColoredRatio(pixels))
    ensures v.disclaimer == ColorDisclaimer
  {
    var ratio := ColoredRatio(pixels);
    if Exceeds(ratio, 0.008) then
      Verdict(true, PregnantMessage, Min(0.75, ratio.value * 80.0), ColorMethod, ColorDetails(ratio), ColorDisclaimer)
    else
      Verdict(false, NotPregnantMessage, 0.65, ColorMethod, ColorDetails(ratio), ColorDisclaimer)
  }

  /** Between two images the fast analysis calls positive, the one with the
      larger coloured share never gets the lower confidence. */
  lemma FastConfidenceMonotone(a: seq<Rgb>, b: seq<Rgb>)
    requires SimpleColorAnalysis(a).isPregnant && SimpleColorAnalysis(b).isPregnant
    requires ColoredRatio(a).value <= ColoredRatio(b).value
    ensures SimpleColorAnalysis(a).confidence <= SimpleColorAnalysis(b).confidence
  {
  }

  /** How the precise analysis files one segment. */
  datatype SegmentClass = Vertical | Horizontal | Unclassified

  /** The angle filter: a segment with `x2 == x1` is skipped before any angle
      is taken; otherwise |angle| in [70, 110] is vertical, and |angle| up
      to 20 or from 160 on is horizontal. */
  function ClassifySegment(s: Segment): (c: SegmentClass)
    ensures s.x1 == s.x2 ==> c == Unclassified
    ensures c == Vertical <==> InVerticalBand(s)
    ensures c == Horizontal <==>
      s.x1 != s.x2 && !InVerticalBand(s) && (Abs(s.degrees) <= 20.0 || Abs(s.degrees) >= 160.0)
  {
    if s.x2 - s.x1 != 0 then
      var angle := Abs(s.degrees);
      if 70.0 <= angle <= 110.0 then Vertical
      else if angle <= 20.0 || angle >= 160.0 then Horizontal
      else Unclassified
    else Unclassified
  }

  predicate IsVertical(s: Segment) {
    ClassifySegment(s) == Vertical
  }

  predicate IsHorizontal(s: Segment) {
    ClassifySegment(s) == Horizontal
  }

  /** `vertical_lines`: empty when `HoughLinesP` found nothing. */
  function VerticalLines(lines: Option<seq<Segment>>): seq<Segment>
  {
    match lines
    case None => []
    case Some(segments) => Filter(segments, IsVertical)
  }

  /** `horizontal_lines` (collected, never used in the verdict). */
  function HorizontalLines(lines: Option<seq<Segment>>): seq<Segment>
  {
    match lines
    case None => []
    case Some(segments) => Filter(segments, IsHorizontal)
  }

  /** `line_count = len(vertical_lines)`. */
  function LineCount(lines: Option<seq<Segment>>): (n: nat)
    ensures lines.None? ==> n == 0
    ensures lines.Some? ==> n == Seqs.Count(lines.value, IsVertical) && n <= |lines.value|
  {
    |VerticalLines(lines)|
  }

  /** The geometric meaning of a counted line, stated without the filter: not
      exactly vertical, and within 20 degrees of vertical. */
  predicate InVerticalBand(s: Segment) {
    s.x1 != s.x2 && 70.0 <= Abs(s.degrees) <= 110.0
  }

  /** The `if`/`elif` files a segment in at most one list: nothing is both
      a vertical and a horizontal line. */
  lemma VerticalAndHorizontalDisjoint(lines: Option<seq<Segment>>)
    ensures forall s :: s in VerticalLines(lines) ==> s !in HorizontalLines(lines)
  {
    forall s | s in VerticalLines(lines) ensures s !in HorizontalLines(lines) {
      assert IsVertical(s);
    }
  }

  /** `line_count` is the number of segments in the vertical band; an exactly
      vertical segment (`x2 == x1`) is never among them. */
  lemma {:induction false} LineCountIsBandCount(segments: seq<Segment>)
    ensures LineCount(Some(segments)) == Count(segments, InVerticalBand)
    decreases |segments|
  {
    if |segments| > 0 {
      var front := segments[..|segments| - 1];
      var last := segments[|segments| - 1];
      LineCountIsBandCount(front);
      assert front + [last] == segments;
      FilterSnoc(front, last, IsVertical);
      assert IsVertical(last) <==> InVerticalBand(last);
    }
  }

  /** Adding an exactly vertical segment to the detector's output never
      changes the line count. */
  lemma ExactlyVerticalIgnored(segments: seq<Segment>, s: Segment)
    requires s.x1 == s.x2
    ensures LineCount(Some(segments + [s])) == LineCount(Some(segments))
  {
    FilterSnoc(segments, s, IsVertical);
  }

  /** The four outcomes of the precise cascade, in the order they are tried. */
  datatype Tier = MultiLine | SingleLine | ColorOnly | Negative

  /** The first-match cascade: two or more lines with ratio above 0.5%, then
      one or more lines with ratio above 1%, then ratio above 1.5%, else
      negative. */
  function TierOf(lineCount: nat, ratio: Ratio): (t: Tier)
    ensures t == MultiLine ==> lineCount >= 2 && Exceeds(ratio, 0.005)
    ensures t == SingleLine ==> lineCount >= 1 && Exceeds(ratio, 0.01)
    ensures t == ColorOnly ==> Exceeds(ratio, 0.015)
    ensures ratio.NaN? ==> t == Negative
    ensures lineCount >= 2 ==> (t == MultiLine <==> Exceeds(ratio, 0.005)) && (t == MultiLine || t == Negative)
    ensures lineCount == 1 ==> (t == SingleLine <==> Exceeds(ratio, 0.01)) && (t == SingleLine || t == Negative)
    ensures lineCount == 0 ==> (t == ColorOnly <==> Exceeds(ratio, 0.015)) && (t == ColorOnly || t == Negative)
  {
    if lineCount >= 2 && Exceeds(ratio, 0.005) then MultiLine
    else if lineCount >= 1 && Exceeds(ratio, 0.01) then SingleLine
    else if Exceeds(ratio, 0.015) then ColorOnly
    else Negative
  }

  /** Verdict, confidence and message of the cascade. */
  datatype Decision = Decision(isPregnant: bool, confidence: real, message: string)

  /** The cascade's outcome. Each tier's confidence lies in its own band:
      (0.8, 0.9] for several lines, (0.75, 0.8] for one line, (0.65, 0.75]
      for colour alone, [0.6, 0.8] for a negative; so always [0.6, 0.9]. */
  function Decide(lineCount: nat, ratio: Ratio): (d: Decision)
    requires IsPixelFraction(ratio)
    ensures d.isPregnant <==> TierOf(lineCount, ratio) != Negative
    ensures TierOf(lineCount, ratio) == MultiLine ==> 0.8 < d.confidence <= 0.9
    ensures TierOf(lineCount, ratio) == SingleLine ==> 0.75 < d.confidence <= 0.8
    ensures TierOf(lineCount, ratio) == ColorOnly ==> 0.65 < d.confidence <= 0.75
    ensures TierOf(lineCount, ratio) == Negative ==> 0.6 <= d.confidence <= 0.8 && d.message == NotPregnantMessage
    ensures 0.6 <= d.confidence <= 0.9
    ensures lineCount >= 2 && Exceeds(ratio, 0.005) ==>
      d.isPregnant && 0.8 < d.confidence <= 0.9
      && d.message == "임신으로 추정됩니다 (" + PyStr.Decimal(lineCount) + "개 선 감지)"
    ensures lineCount == 1 && Exceeds(ratio, 0.01) ==>
      d.isPregnant && 0.75 < d.confidence <= 0.8
      && d.message == "임신 가능성이 있습니다 (" + PyStr.Decimal(lineCount) + "개 선 감지)"
    ensures lineCount == 0 && Exceeds(ratio, 0.015) ==>
      d.isPregnant && 0.65 < d.confidence <= 0.75 && d.message == "임신 가능성이 있습니다 (색상 기반)"
  {
    match TierOf(lineCount, ratio)
    case MultiLine =>
      Decision(true, Min(0.9, 0.7 + ratio.value * 20.0),
               "임신으로 추정됩니다 (" + PyStr.Decimal(lineCount) + "개 선 감지)")
    case SingleLine =>
      Decision(true, Min(0.8, 0.6 + ratio.value * 15.0),
               "임신 가능성이 있습니다 (" + PyStr.Decimal(lineCount) + "개 선 감지)")
    case ColorOnly =>
      Decision(true, Min(0.75, 0.5 + ratio.value * 10.0), "임신 가능성이 있습니다 (색상 기반)")
    case Negative =>
      // Python's max(0.6, nan) keeps its first argument.
      var confidence := if ratio.Num? then Max(0.6, 0.8 - ratio.value * 5.0) else 0.6;
      Decision(false, confidence, NotPregnantMessage)
  }

  /** The verdict of the cascade, stated without its branch order: positive
      exactly when the ratio is above 1.5%, or above 1% with a line, or
      above 0.5% with two lines. */
  lemma DecidePositiveIff(lineCount: nat, ratio: Ratio)
    requires IsPixelFraction(ratio)
    ensures Decide(lineCount, ratio).isPregnant <==>
      || Exceeds(ratio, 0.015)
      || (lineCount >= 1 && Exceeds(ratio, 0.01))
      || (lineCount >= 2 && Exceeds(ratio, 0.005))
  {
  }

  /** Within one tier, more colour never lowers the confidence of a positive
      verdict and never raises that of a negative one. */
  lemma DecideConfidenceMonotone(lineCount: nat, r1: real, r2: real)
    requires 0.0 <= r1 <= r2 <= 1.0
    requires TierOf(lineCount, Num(r1)) == TierOf(lineCount, Num(r2))
    ensures TierOf(lineCount, Num(r1)) != Negative ==>
      Decide(lineCount, Num(r1)).confidence <= Decide(lineCount, Num(r2)).confidence
    ensures TierOf(lineCount, Num(r1)) == Negative ==>
      Decide(lineCount, Num(r1)).confidence >= Decide(lineCount, Num(r2)).confidence
  {
  }

  /** An image without any red or pink pixel is negative with confidence
      0.8, whatever lines were found. */
  lemma NoColourIsNegative(lineCount: nat)
    ensures !Decide(lineCount, Num(0.0)).isPregnant
    ensures Decide(lineCount, Num(0.0)).confidence == 0.8
  {
  }

  /** However many lines are found, a ratio of at most 0.5% is negative. */
  lemma ManyLinesNeedColor(lineCount: nat, ratio: Ratio)
    requires IsPixelFraction(ratio)
    requires lineCount >= 2 && !Exceeds(ratio, 0.005)
    ensures !Decide(lineCount, ratio).isPregnant
  {
  }

  /** The precise analysis. When an OpenCV call raises, the result is the
      fast analysis of the same image; otherwise the cascade decides. The
      first `cvtColor` rejects an image without pixels, so such an image
      always takes the fallback. */
  function OpencvLineAnalysis(pixels: seq<Rgb>, detection: Detection): (v: Verdict)
    ensures detection.DetectionFailed? || |pixels| == 0 ==> v == SimpleColorAnalysis(pixels)
    ensures detection.Detected? && |pixels| > 0 ==>
      && v.analysisMethod == LineMethod
      && v.details == LineDetails(LineCount(detection.lines), ColoredRatio(pixels))
      && (v.isPregnant <==> TierOf(LineCount(detection.lines), ColoredRatio(pixels)) != Negative)
    ensures detection.Detected? && |pixels| > 0 ==>
      var d := Decide(LineCount(detection.lines), ColoredRatio(pixels));
      v.message == d.message && v.confidence == d.confidence && v.disclaimer == LineDisclaimer
    ensures 0.6 <= v.confidence <= 0.9
  {
    match detection
    case DetectionFailed(_) => SimpleColorAnalysis(pixels)
    case Detected(lines) =>
      if |pixels| == 0 then SimpleColorAnalysis(pixels)
      else
        var lineCount := LineCount(lines);
        var ratio := ColoredRatio(pixels);
        var d := Decide(lineCount, ratio);
        Verdict(d.isPregnant, d.message, d.confidence, LineMethod, LineDetails(lineCount, ratio), LineDisclaimer)
  }

  /** When the precise analysis sees no line yet calls the strip positive,
      the fast analysis of the same image is positive too: 1.5% is a higher
      bar than 0.8%. */
  lemma PreciseColorOnlyImpliesFast(pixels: seq<Rgb>, lines: Option<seq<Segment>>)
    requires LineCount(lines) == 0
    requires OpencvLineAnalysis(pixels, Detected(lines)).isPregnant
    ensures SimpleColorAnalysis(pixels).isPregnant
  {
  }
}

=== FILE: ultrasound_analyzer.dfy ===
/** The text side of the ultrasound analyzer: choosing the best of several
    OCR passes, and normalising the gestational age, the sex and the date
    found in the recognised text. The OCR engine is an oracle from page
    segmentation setting to outcome. */
module UltrasoundAnalyzer {
  import opened PyStr

  // ---------------------------------------------------------------------
  // Choosing among OCR passes

  /** What one `pytesseract.image_to_string` call produced. */
  datatype OcrOutcome = OcrFailed | OcrText(text: string)

  /** The page segmentation settings, tried in this order. */
  const OcrConfigs: seq<string> := ["--psm 6", "--psm 8", "--psm 11", "--psm 12"]

  /** The stand-in for OCR confidence: the length of the stripped text, 0
      for a failed pass. */
  function Score(ocr: string -> OcrOutcome, k: nat): nat
    requires k < |OcrConfigs|
  {
    Confidence(ocr(OcrConfigs[k]))
  }

  /** `len(text.strip())` for a pass that produced text; a pass that raised is
      skipped, which is as good as scoring 0. */
  function Confidence(outcome: OcrOutcome): nat {
    if outcome.OcrText? then |Strip(outcome.text)| else 0
  }

  /** A pass scores 0 exactly when it failed or read nothing but white
      space, so `ExtractText` returns "" exactly when every pass did. */
  lemma BlankIffScoreZero(outcome: OcrOutcome)
    ensures Confidence(outcome) == 0 <==>
      outcome.OcrFailed? || forall k :: 0 <= k < |outcome.text| ==> IsSpace(outcome.text[k])
  {
    if outcome.OcrText? {
      StripAllSpace(outcome.text);
    }
  }

  /** Pass `k` wins: it has text, no pass scores higher, and every earlier
      pass scores strictly lower. */
  predicate IsFirstBest(ocr: string -> OcrOutcome, k: nat)
    requires k < |OcrConfigs|
  {
    && Score(ocr, k) > 0
    && (forall j :: 0 <= j < |OcrConfigs| ==> Score(ocr, j) <= Score(ocr, k))
    && (forall j :: 0 <= j < k ==> Score(ocr, j) < Score(ocr, k))
  }

  /** Pass `k` produced the text `best` and scores `m`, and every pass
      before `k` scored strictly less than `m`. */
  predicate LeadsWith(ocr: string -> OcrOutcome, k: nat, best: string, m: nat)
    requires k < |OcrConfigs|
  {
    && ocr(OcrConfigs[k]) == OcrText(best)
    && Score(ocr, k) == m
    && (forall j :: 0 <= j < k ==> Score(ocr, j) < m)
  }

  /** `_extract_text`: the raw text of the first pass with the greatest
      stripped length, or "" when every pass failed or read only white space. */
  method ExtractText(ocr: string -> OcrOutcome) returns (best: string)
    ensures best == "" <==> forall k :: 0 <= k < |OcrConfigs| ==> Score(ocr, k) == 0
    ensures best != "" ==> exists k :: 0 <= k < |OcrConfigs| && ocr(OcrConfigs[k]) == OcrText(best) && IsFirstBest(ocr, k)
  {
    best := "";
    var maxConfidence: nat := 0;
    var i := 0;
    while i < |OcrConfigs|
      invariant 0 <= i <= |OcrConfigs|
      invariant forall j :: 0 <= j < i ==> Score(ocr, j) <= maxConfidence
      invariant maxConfidence == 0 <==> best == ""
      invariant maxConfidence > 0 ==> exists k :: 0 <= k < i && LeadsWith(ocr, k, best, maxConfidence)
    {
      var outcome := ocr(OcrConfigs[i]);
      if outcome.OcrText? {
        var confidence := Confidence(outcome);
        if confidence > maxConfidence {
          maxConfidence := confidence;
          best := outcome.text;
          assert LeadsWith(ocr, i, best, maxConfidence);
        }
      }
      i := i + 1;
    }
    if best != "" {
      var k :| 0 <= k < |OcrConfigs| && LeadsWith(ocr, k, best, maxConfidence);
      assert IsFirstBest(ocr, k);
    }
  }

  // ---------------------------------------------------------------------
  // Gestational age

  /** The text names both a week and a day letter, in either case. */
  predicate MentionsWeeksAndDays(text: string) {
    ('w' in text || 'W' in text) && ('d' in text || 'D' in text)
  }

  /** The unit rewrite: every `w`/`W` becomes "주 ", every `d`/`D` becomes "일". */
  function RewriteUnits(text: string): string {
    Replace(Replace(Replace(Replace(text, 'w', "주 "), 'W', "주 "), 'd', "일"), 'D', "일")
  }

  /** The rewrite works character by character: it distributes over
      concatenation. */
  lemma RewriteUnitsAppend(a: string, b: string)
    ensures RewriteUnits(a + b) == RewriteUnits(a) + RewriteUnits(b)
  {
    ReplaceAppend(a, b, 'w', "주 ");
    var a1, b1 := Replace(a, 'w', "주 "), Replace(b, 'w', "주 ");
    ReplaceAppend(a1, b1, 'W', "주 ");
    var a2, b2 := Replace(a1, 'W', "주 "), Replace(b1, 'W', "주 ");
    ReplaceAppend(a2, b2, 'd', "일");
    var a3, b3 := Replace(a2, 'd', "일"), Replace(b2, 'd', "일");
    ReplaceAppend(a3, b3, 'D', "일");
  }

  /** What the rewrite makes of one character: a week letter in either case
      becomes "주 ", a day letter "일", and anything else stays. */
  lemma RewriteUnitsChar(c: char)
    ensures c == 'w' || c == 'W' ==> RewriteUnits([c]) == "주 "
    ensures c == 'd' || c == 'D' ==> RewriteUnits([c]) == "일"
    ensures c != 'w' && c != 'W' && c != 'd' && c != 'D' ==> RewriteUnits([c]) == [c]
  {
    var a := Replace([c], 'w', "주 ");
    var b := Replace(a, 'W', "주 ");
    var d := Replace(b, 'd', "일");
    assert 'W' !in "주 " && 'd' !in "주 " && 'D' !in "주 " && 'D' !in "일";
  }

  /** After the rewrite no unit letter is left, in either case. */
  lemma RewriteUnitsDropsLetters(text: string)
    ensures var r := RewriteUnits(text); 'w' !in r && 'W' !in r && 'd' !in r && 'D' !in r
  {
    var a := Replace(text, 'w', "주 ");
    var b := Replace(a, 'W', "주 ");
    var c := Replace(b, 'd', "일");
    ReplaceMembers(text, 'w', "주 ");
    ReplaceMembers(a, 'W', "주 ");
    ReplaceMembers(b, 'd', "일");
    ReplaceMembers(c, 'D', "일");
  }

  /** `_normalize_gestational_age`: when the text holds both a `w` and a `d`
      (any case), the units are rewritten in Korean; the result is stripped
      either way. */
  function NormalizeGestationalAge(text: string): (r: string)
    ensures IsStripped(r)
    ensures MentionsWeeksAndDays(text) ==> 'w' !in r && 'W' !in r && 'd' !in r && 'D' !in r
    ensures MentionsWeeksAndDays(text) ==> r == Strip(RewriteUnits(text))
    ensures !MentionsWeeksAndDays(text) ==> r == Strip(text)
  {
    var lowered := Lower(text);
    LowerContains(text, 'w');
    LowerContains(text, 'd');
    RewriteUnitsDropsLetters(text);
    var rewritten := if 'w' in lowered && 'd' in lowered then RewriteUnits(text) else text;
    StripMembers(rewritten);
    Strip(rewritten)
  }

  /** Normalising an already normalised age changes nothing. */
  lemma GestationalAgeIdempotent(text: string)
    ensures NormalizeGestationalAge(NormalizeGestationalAge(text)) == NormalizeGestationalAge(text)
  {
    var r := NormalizeGestationalAge(text);
    StripMembers(text);
    assert !MentionsWeeksAndDays(r);
  }

  /** The first step of the unit rewrite of "12w3d". */
  lemma RewriteWeekExample(text: string)
    requires text == "12w3d"
    ensures Replace(text, 'w', "주 ") == "12주 3d"
  {
    assert text == "12" + "w3d";
    ReplaceAppend("12", "w3d", 'w', "주 ");
  }

  /** The remaining steps of the unit rewrite of "12w3d". */
  lemma RewriteDayExample(a: string)
    requires a == "12주 3d"
    ensures Replace(Replace(Replace(a, 'W', "주 "), 'd', "일"), 'D', "일") == "12주 3일"
  {
    assert 'W' !in a;
    assert a == "12주 3" + "d";
    ReplaceAppend("12주 3", "d", 'd', "일");
    assert Replace(a, 'd', "일") == "12주 3일";
    assert 'D' !in "12주 3일";
  }

  /** The unit rewrite of "12w3d". */
  lemma RewriteExample(text: string)
    requires text == "12w3d"
    ensures RewriteUnits(text) == "12주 3일"
  {
    RewriteWeekExample(text);
    RewriteDayExample(Replace(text, 'w', "주 "));
  }

  /** The worked example: "12w3d" reads "12주 3일". */
  lemma GestationalAgeExample(text: string)
    requires text == "12w3d"
    ensures NormalizeGestationalAge(text) == "12주 3일"
  {
    RewriteExample(text);
    assert MentionsWeeksAndDays(text);
  }

  // ---------------------------------------------------------------------
  // Sex

  /** The lookup table of `_normalize_gender`. */
  const GenderMap: map<string, string> := map[
    "M" := "남아", "Male" := "남아", "BOY" := "남아", "남" := "남아",
    "F" := "여아", "Female" := "여아", "GIRL" := "여아", "여" := "여아"]

  /** `_normalize_gender`: the stripped, upper-cased text looked up in the
      table, or that text itself when it is not a key. */
  function NormalizeGender(text: string): (r: string)
    ensures r == "남아" || r == "여아" || r == Upper(Strip(text))
  {
    var key := Upper(Strip(text));
    if key in GenderMap then GenderMap[key] else key
  }

  /** Upper-casing comes after the lookup key is built, so the mixed-case
      keys "Male" and "Female" can never match. */
  lemma MixedCaseKeysUnreachable(text: string)
    ensures Upper(Strip(text)) != "Male" && Upper(Strip(text)) != "Female"
  {
    var key := Upper(Strip(text));
    if |key| >= 2 {
      assert key[1] == UpperChar(Strip(text)[1]);
      assert key[1] != 'a' && key[1] != 'e';
    }
  }

  /** Which inputs come out as a boy: "M", "BOY", "남" (any case, any
      surrounding white space), and "남아" itself. */
  lemma GenderBoyIff(text: string)
    ensures NormalizeGender(text) == "남아" <==> Upper(Strip(text)) in {"M", "BOY", "남", "남아"}
  {
    MixedCaseKeysUnreachable(text);
  }

  /** Which inputs come out as a girl: "F", "GIRL", "여", and "여아" itself. */
  lemma GenderGirlIff(text: string)
    ensures NormalizeGender(text) == "여아" <==> Upper(Strip(text)) in {"F", "GIRL", "여", "여아"}
  {
    MixedCaseKeysUnreachable(text);
  }

  /** The two table values normalise to themselves. */
  lemma GenderValuesAreFixed(v: string)
    requires v == "남아" || v == "여아"
    ensures NormalizeGender(v) == v
  {
    assert IsStripped(v);
    assert Upper(v) == v;
    assert v !in GenderMap;
  }

  /** Normalising a normalised sex changes nothing. */
  lemma GenderIdempotent(text: string)
    ensures NormalizeGender(NormalizeGender(text)) == NormalizeGender(text)
  {
    var key := Upper(Strip(text));
    UpperKeepsStripped(Strip(text));
    if key in GenderMap {
      GenderValuesAreFixed(GenderMap[key]);
    }
  }

  /** The examples: " boy " is a boy, "Male" is passed through upper-cased. */
  lemma GenderExamples()
    ensures NormalizeGender(" boy ") == "남아"
    ensures NormalizeGender("Male") == "MALE"
  {
    assert Strip(" boy ") == "boy" by {
      assert " boy "[1..] == "boy ";
      assert "boy "[..3] == "boy";
    }
    assert Upper("boy") == "BOY";
    assert Strip("Male") == "Male";
    assert Upper("Male") == "MALE";
  }

  // ---------------------------------------------------------------------
  // Dates

  predicate IsDateSeparator(c: char) {
    c == '-' || c == '/' || c == '.'
  }

  predicate HasDateSeparator(text: string) {
    '-' in text || '/' in text || '.' in text
  }

  /** A date piece: no separator of any kind inside. */
  predicate IsDatePiece(p: string) {
    '-' !in p && '/' !in p && '.' !in p
  }

  /** `text.replace('/', '-').replace('.', '-')`. */
  function Dashed(text: string): (r: string)
    ensures '/' !in r && '.' !in r
    ensures HasDateSeparator(text) ==> '-' in r
    ensures '/' !in text && '.' !in text ==> r == text
  {
    var once := Replace(text, '/', "-");
    ReplaceMembers(text, '/', "-");
    ReplaceMembers(once, '.', "-");
    Replace(once, '.', "-")
  }

  /** Rewriting separators works piece by piece. */
  lemma DashedAppend(x: string, y: string)
    ensures Dashed(x + y) == Dashed(x) + Dashed(y)
  {
    ReplaceAppend(x, y, '/', "-");
    ReplaceAppend(Replace(x, '/', "-"), Replace(y, '/', "-"), '.', "-");
  }

  /** `date_text.split('-')` after the rewrite: the pieces between dashes,
      none holding a separator of any kind. */
  function DatePieces(text: string): (parts: seq<string>)
    ensures |parts| >= 1 && Join(parts, '-') == Dashed(text)
    ensures forall k :: 0 <= k < |parts| ==> IsDatePiece(parts[k])
  {
    var dashed := Dashed(text);
    var parts := Split(dashed, '-');
    PiecesAvoid(parts, dashed);
    parts
  }

  /** Pieces of a text free of '/' and '.' are free of them too. */
  lemma PiecesAvoid(parts: seq<string>, dashed: string)
    requires Join(parts, '-') == dashed && '/' !in dashed && '.' !in dashed
    ensures forall k :: 0 <= k < |parts| ==> '/' !in parts[k] && '.' !in parts[k]
  {
    forall k | 0 <= k < |parts|
      ensures '/' !in parts[k] && '.' !in parts[k]
    {
      if '/' in parts[k] { PieceInJoin(parts, '-', k, '/'); }
      if '.' in parts[k] { PieceInJoin(parts, '-', k, '.'); }
    }
  }

  /** `f"{year}-{month.zfill(2)}-{day.zfill(2)}"`. */
  function YearMonthDay(year: string, month: string, day: string): (r: string)
    requires IsDatePiece(year) && IsDatePiece(month) && IsDatePiece(day)
    ensures '-' in r && '/' !in r && '.' !in r
  {
    var r := year + "-" + ZFill(month, 2) + "-" + ZFill(day, 2);
    assert r[|year|] == '-';
    r
  }

  /** `_normalize_date`: with any of '-', '/', '.' present, all become '-';
      three pieces with a four-character first piece are joined year first
      with month and day zero-padded to two, three pieces with a
      four-character last piece are reordered the same way, anything else
      keeps the rewritten separators. Text without separators is untouched. */
  function NormalizeDate(text: string): (r: string)
    ensures !HasDateSeparator(text) ==> r == text
    ensures HasDateSeparator(text) ==> '-' in r && '/' !in r && '.' !in r
    ensures (HasDateSeparator(text)
      && !(|DatePieces(text)| == 3 && (|DatePieces(text)[0]| == 4 || |DatePieces(text)[2]| == 4)))
      ==> r == Dashed(text)
  {
    if HasDateSeparator(text) then
      var parts := DatePieces(text);
      if |parts| == 3 && |parts[0]| == 4 then YearMonthDay(parts[0], parts[1], parts[2])
      else if |parts| == 3 && |parts[2]| == 4 then YearMonthDay(parts[2], parts[1], parts[0])
      else Dashed(text)
    else
      text
  }

  /** Rewriting the separators of three pieces gives the dashed form. */
  lemma DashedThree(a: string, b: string, c: string, s1: char, s2: char)
    requires IsDatePiece(a) && IsDatePiece(b) && IsDatePiece(c)
    requires IsDateSeparator(s1) && IsDateSeparator(s2)
    ensures Dashed(a + [s1] + b + [s2] + c) == a + "-" + b + "-" + c
  {
    DashedAppend(a + [s1] + b + [s2], c);
    DashedAppend(a + [s1] + b, [s2]);
    DashedAppend(a + [s1], b);
    DashedAppend(a, [s1]);
    assert Dashed([s1]) == "-" && Dashed([s2]) == "-";
  }

  /** Joining three pieces with dashes. */
  lemma JoinThree(a: string, b: string, c: string)
    ensures Join([a, b, c], '-') == a + "-" + b + "-" + c
  {
    assert [a, b, c][1..] == [b, c];
    assert [b, c][1..] == [c];
    assert Join([b, c], '-') == b + ['-'] + c;
    assert Join([a, b, c], '-') == a + ['-'] + (b + ['-'] + c);
  }

  /** Three pieces written with any separators split back into those pieces. */
  lemma PiecesOfDate(a: string, b: string, c: string, s1: char, s2: char)
    requires IsDatePiece(a) && IsDatePiece(b) && IsDatePiece(c)
    requires IsDateSeparator(s1) && IsDateSeparator(s2)
    ensures HasDateSeparator(a + [s1] + b + [s2] + c)
    ensures DatePieces(a + [s1] + b + [s2] + c) == [a, b, c]
  {
    var text := a + [s1] + b + [s2] + c;
    assert text[|a|] == s1;
    DashedThree(a, b, c, s1, s2);
    JoinThree(a, b, c);
    SplitOfJoin([a, b, c], '-');
  }

  /** A year-first date "YYYY<s>M<s>D" becomes "YYYY-MM-DD". */
  lemma YearFirstDate(y: string, m: string, d: string, s1: char, s2: char)
    requires IsDatePiece(y) && IsDatePiece(m) && IsDatePiece(d)
    requires IsDateSeparator(s1) && IsDateSeparator(s2)
    requires |y| == 4
    ensures NormalizeDate(y + [s1] + m + [s2] + d) == y + "-" + ZFill(m, 2) + "-" + ZFill(d, 2)
  {
    PiecesOfDate(y, m, d, s1, s2);
  }

  /** A day-first date "D<s>M<s>YYYY" (day not four characters long) is
      reordered to "YYYY-MM-DD". */
  lemma DayFirstDate(d: string, m: string, y: string, s1: char, s2: char)
    requires IsDatePiece(y) && IsDatePiece(m) && IsDatePiece(d)
    requires IsDateSeparator(s1) && IsDateSeparator(s2)
    requires |y| == 4 && |d| != 4
    ensures NormalizeDate(d + [s1] + m + [s2] + y) == y + "-" + ZFill(m, 2) + "-" + ZFill(d, 2)
  {
    PiecesOfDate(d, m, y, s1, s2);
  }

  // The two worked date examples are assembled from the small facts below.
  // Each example takes its literal as a parameter (`requires text == "..."`)
  // instead of writing it inline, so the verifier reasons about the named
  // pieces rather than unfolding the whole literal at once.

  /** The two padded fields of the examples. */
  lemma ZFillExamples()
    ensures ZFill("1", 2) == "01" && ZFill("5", 2) == "05"
  {
    assert seq(1, _ => '0') == "0";
  }

  /** The pieces of the examples are separator-free. */
  lemma PiecesExample()
    ensures IsDatePiece("2024") && IsDatePiece("1") && IsDatePiece("5")
  {
  }

  /** "2024/1/5" in pieces. */
  lemma YearFirstText(text: string)
    requires text == "2024/1/5"
    ensures text == "2024" + ['/'] + "1" + ['/'] + "5"
  {
  }

  /** "5.1.2024" in pieces. */
  lemma DayFirstText(text: string)
    requires text == "5.1.2024"
    ensures text == "5" + ['.'] + "1" + ['.'] + "2024"
  {
  }

  /** The normalised form of both worked examples, assembled. */
  lemma ExampleDate()
    ensures "2024" + "-" + ZFill("1", 2) + "-" + ZFill("5", 2) == "2024-01-05"
  {
    ZFillExamples();
  }

  /** The worked example "2024/1/5" reads "2024-01-05". */
  lemma YearFirstExample(text: string)
    requires text == "2024/1/5"
    ensures NormalizeDate(text) == "2024-01-05"
  {
    YearFirstText(text);
    PiecesExample();
    YearFirstDate("2024", "1", "5", '/', '/');
    ExampleDate();
  }

  /** The worked example "5.1.2024" reads "2024-01-05". */
  lemma DayFirstExample(text: string)
    requires text == "5.1.2024"
    ensures NormalizeDate(text) == "2024-01-05"
  {
    DayFirstText(text);
    PiecesExample();
    DayFirstDate("5", "1", "2024", '.', '.');
    ExampleDate();
  }

  /** Normalising a date twice gives the same text as normalising it once. */
  lemma NormalizeDateIdempotent(text: string)
    ensures NormalizeDate(NormalizeDate(text)) == NormalizeDate(text)
  {
    if HasDateSeparator(text) {
      var parts := DatePieces(text);
      var r := NormalizeDate(text);
      if |parts| == 3 && (|parts[0]| == 4 || |parts[2]| == 4) {
        var first := if |parts[0]| == 4 then parts[0] else parts[2];
        var last := if |parts[0]| == 4 then parts[2] else parts[0];
        var mid := ZFill(parts[1], 2);
        var end := ZFill(last, 2);
        assert r == first + ['-'] + mid + ['-'] + end;
        YearFirstDate(first, mid, end, '-', '-');
      } else {
        assert r == Dashed(text);
        assert Dashed(r) == r;
        assert DatePieces(r) == parts;
      }
    }
  }

  /** A well-formed "YYYY-MM-DD" date is left as it is. */
  lemma IsoDateIsFixed(y: string, m: string, d: string)
    requires IsDatePiece(y) && IsDatePiece(m) && IsDatePiece(d)
    requires |y| == 4 && |m| == 2 && |d| == 2
    ensures NormalizeDate(y + "-" + m + "-" + d) == y + "-" + m + "-" + d
  {
    YearFirstDate(y, m, d, '-', '-');
  }
}

=== FILE: utils.dfy ===
/** The helpers of the records pages: reading the week number out of a
    gestational-age text, the week-to-date progress chart, the gallery's week
    filter and the checks on an uploaded image before it is decoded. */
module Utils {
  import opened Builtins
  import opened PyStr
  import Seqs

  // ---------------------------------------------------------------------
  // Week number: `re.search(r'(\d+)[주w]', text)`

  /** The characters the class `[주w]` accepts (lower-case `w` only). */
  predicate IsWeekMark(c: char) {
    c == '주' || c == 'w'
  }

  /** The end of the run of digits that starts at `i`. */
  function RunEnd(s: string, i: nat): (j: nat)
    requires i <= |s|
    ensures i <= j <= |s|
    ensures AllDigits(s[i..j])
    ensures j < |s| ==> !IsDigit(s[j])
    decreases |s| - i
  {
    if i < |s| && IsDigit(s[i]) then
      var j := RunEnd(s, i + 1);
      assert s[i..j] == [s[i]] + s[i + 1..j];
      j
    else i
  }

  /** The pattern matches at `i` with group `s[i..j]`: one or more digits
      followed by a week mark. This is the pattern read literally, with no
      reference to how the search proceeds. */
  predicate PatternAt(s: string, i: nat, j: nat) {
    i < j < |s| && AllDigits(s[i..j]) && IsWeekMark(s[j])
  }

  /** A match can start at `i`: the digit run from `i` is followed by a mark. */
  predicate WeekMatchAt(s: string, i: nat)
    requires i <= |s|
  {
    i < |s| && IsDigit(s[i]) && RunEnd(s, i) < |s| && IsWeekMark(s[RunEnd(s, i)])
  }

  /** A week mark is never a digit, so the greedy `\d+` has exactly one way
      to match at `i`: up to the end of the digit run. */
  lemma PatternIsRun(s: string, i: nat, j: nat)
    requires i <= |s|
    ensures PatternAt(s, i, j) <==> WeekMatchAt(s, i) && j == RunEnd(s, i)
  {
    var e := RunEnd(s, i);
    forall k | i <= k < e ensures IsDigit(s[k]) {
      assert s[k] == s[i..e][k - i];
    }
    if PatternAt(s, i, j) {
      forall k | i <= k < j ensures IsDigit(s[k]) {
        assert s[k] == s[i..j][k - i];
      }
    }
  }

  /** The search from position `i` onwards: the first start where the
      pattern matches, and the value of its digits. */
  function SearchWeek(s: string, i: nat): (r: Option<nat>)
    requires i <= |s|
    ensures r.None? <==> forall k :: i <= k < |s| ==> !WeekMatchAt(s, k)
    ensures r.Some? ==> exists k :: (i <= k < |s| && WeekMatchAt(s, k)
      && (forall m :: i <= m < k ==> !WeekMatchAt(s, m))
      && r.value == DigitsValue(s[k..RunEnd(s, k)]))
    decreases |s| - i
  {
    if i == |s| then None
    else if WeekMatchAt(s, i) then Some(DigitsValue(s[i..RunEnd(s, i)]))
    else SearchWeek(s, i + 1)
  }

  /** `get_week_number`: None for a missing or empty text, else the number
      in front of the leftmost `주` or `w` that follows a run of digits. */
  function GetWeekNumber(text: Option<string>): (r: Option<nat>)
    ensures text.None? || text.value == "" ==> r.None?
  {
    if text.None? || text.value == "" then None else SearchWeek(text.value, 0)
  }

  /** The week number in terms of the pattern alone: a number comes out
      exactly when the pattern matches somewhere, and it is the value of the
      group of the leftmost match. */
  lemma GetWeekNumberIsLeftmostMatch(s: string)
    ensures GetWeekNumber(Some(s)).Some? <==> exists i: nat, j: nat :: PatternAt(s, i, j)
    ensures GetWeekNumber(Some(s)).Some? ==> exists i: nat, j: nat :: (PatternAt(s, i, j)
      && (forall m: nat, n: nat :: m < i ==> !PatternAt(s, m, n))
      && GetWeekNumber(Some(s)).value == DigitsValue(s[i..j]))
  {
    var r := SearchWeek(s, 0);
    if r.Some? {
      var k :| 0 <= k < |s| && WeekMatchAt(s, k)
        && (forall m :: 0 <= m < k ==> !WeekMatchAt(s, m))
        && r.value == DigitsValue(s[k..RunEnd(s, k)]);
      PatternIsRun(s, k, RunEnd(s, k));
      forall m: nat, n: nat | m < k ensures !PatternAt(s, m, n) {
        if m <= |s| {
          PatternIsRun(s, m, n);
        }
      }
    } else {
      forall i: nat, j: nat ensures !PatternAt(s, i, j) {
        if i <= |s| {
          PatternIsRun(s, i, j);
        }
      }
    }
  }

  /** "12주 3일" is week 12. */
  lemma KoreanWeekExample(a: string)
    requires a == "12주 3일"
    ensures GetWeekNumber(Some(a)) == Some(12)
  {
    assert RunEnd(a, 2) == 2 && RunEnd(a, 1) == 2 && RunEnd(a, 0) == 2;
    assert WeekMatchAt(a, 0);
    assert a[0..2] == "12" && "12"[..1] == "1";
    assert DigitsValue("12") == 12;
  }

  /** "12w3d" is week 12. */
  lemma LetterWeekExample(b: string)
    requires b == "12w3d"
    ensures GetWeekNumber(Some(b)) == Some(12)
  {
    assert b[2] == 'w' && !IsDigit(b[2]);
    assert RunEnd(b, 2) == 2 && RunEnd(b, 1) == 2 && RunEnd(b, 0) == 2;
    assert WeekMatchAt(b, 0);
    assert b[0..2] == "12" && "12"[..1] == "1";
    assert DigitsValue("12") == 12;
  }

  /** An upper-case "W" is not a week mark: "12W3D" has no week number. */
  lemma UpperLetterExample(c: string)
    requires c == "12W3D"
    ensures GetWeekNumber(Some(c)) == None
  {
    assert RunEnd(c, 5) == 5 && RunEnd(c, 4) == 4 && RunEnd(c, 3) == 4;
    assert RunEnd(c, 2) == 2 && RunEnd(c, 1) == 2 && RunEnd(c, 0) == 2;
    assert !WeekMatchAt(c, 0) && !WeekMatchAt(c, 1) && !WeekMatchAt(c, 2)
      && !WeekMatchAt(c, 3) && !WeekMatchAt(c, 4);
  }

  // ---------------------------------------------------------------------
  // Records

  /** The fields of a saved analysis that the helpers read; a missing
      `analysis_date` reads as "". */
  datatype Record = Record(kind: string, gestationalAge: Option<string>, analysisDate: string)

  /** A truthy `record.get('gestational_age')`: present and non-empty. */
  predicate HasGestationalAge(r: Record) {
    r.gestationalAge.Some? && r.gestationalAge.value != ""
  }

  // ---------------------------------------------------------------------
  // Progress chart

  /** `s[:10]`. */
  function Head10(s: string): (r: string)
    ensures |r| <= 10 && |r| <= |s| && r == s[..|r|]
    ensures |s| <= 10 ==> r == s
    ensures |s| > 10 ==> |r| == 10
  {
    if |s| <= 10 then s else s[..10]
  }

  /** The week a record contributes to the chart: an ultrasound with a
      gestational age whose week number is truthy (not missing, not 0). */
  function ChartWeek(r: Record): (w: Option<nat>)
    ensures w.Some? ==> w.value > 0 && r.kind == "ultrasound"
    ensures w.Some? <==> (r.kind == "ultrasound" && HasGestationalAge(r)
      && GetWeekNumber(r.gestationalAge).Some? && GetWeekNumber(r.gestationalAge).value != 0)
    ensures w.Some? ==> w == GetWeekNumber(r.gestationalAge)
  {
    if r.kind == "ultrasound" && HasGestationalAge(r) then
      match GetWeekNumber(r.gestationalAge)
      case Some(w) => if w != 0 then Some(w) else None
      case None => None
    else None
  }

  /** `create_progress_chart`: week number to the date (first ten
      characters) of a record of that week; a later record overwrites an
      earlier one. */
  function ProgressChart(records: seq<Record>): (chart: map<nat, string>)
    ensures forall w :: w in chart ==> w > 0 && |chart[w]| <= 10
    decreases |records|
  {
    if |records| == 0 then map[]
    else
      var chart := ProgressChart(records[..|records| - 1]);
      var r := records[|records| - 1];
      match ChartWeek(r)
      case Some(w) => chart[w := Head10(r.analysisDate)]
      case None => chart
  }

  /** A week is charted exactly when some record contributes it. */
  lemma {:induction false} ChartedIff(records: seq<Record>, w: nat)
    ensures w in ProgressChart(records) <==> exists i :: 0 <= i < |records| && ChartWeek(records[i]) == Some(w)
    decreases |records|
  {
    if |records| > 0 {
      var front := records[..|records| - 1];
      ChartedIff(front, w);
      assert forall i :: 0 <= i < |front| ==> front[i] == records[i];
    }
  }

  /** The date charted for a week is that of the last record of that week. */
  lemma {:induction false} ChartKeepsLastDate(records: seq<Record>, w: nat, i: nat)
    requires i < |records| && ChartWeek(records[i]) == Some(w)
    requires forall k :: i < k < |records| ==> ChartWeek(records[k]) != Some(w)
    ensures w in ProgressChart(records) && ProgressChart(records)[w] == Head10(records[i].analysisDate)
    decreases |records|
  {
    var front := records[..|records| - 1];
    if i < |records| - 1 {
      ChartKeepsLastDate(front, w, i);
    }
  }

  /** Records that are not ultrasounds never reach the chart. */
  lemma {:induction false} ChartIgnoresOtherKinds(records: seq<Record>, extra: Record)
    requires extra.kind != "ultrasound"
    ensures ProgressChart(records + [extra]) == ProgressChart(records)
  {
    assert (records + [extra])[..|records|] == records;
  }

  // ---------------------------------------------------------------------
  // Gallery week filter

  /** The `week_filter` argument: absent, a week number, or a text (the
      select box's "전체" for all weeks). */
  datatype WeekFilter = NoFilter | WeekNumber(n: int) | WeekText(text: string)

  /** The label that means every week. */
  const AllWeeks: string := "전체"

  /** `week_filter and week_filter != "전체"`. */
  predicate FilterApplies(f: WeekFilter) {
    match f
    case NoFilter => false
    case WeekNumber(n) => n != 0
    case WeekText(t) => t != "" && t != AllWeeks
  }

  /** The text before the first `주` of the gestational age. */
  function GalleryWeek(ga: string): (week: string)
    ensures '주' !in week
    ensures |week| <= |ga| && week == ga[..|week|]
    ensures |week| < |ga| ==> ga[|week|] == '주'
  {
    var parts := Split(ga, '주');
    assert Join(parts, '주') == ga;
    if |parts| == 1 then parts[0]
    else
      JoinFirst(parts, '주');
      parts[0]
  }

  /** `ga.split('주')[0]` is `ga` up to its first `주`. */
  lemma {:induction false} JoinFirst(parts: seq<string>, sep: char)
    requires |parts| >= 2
    ensures Join(parts, sep) == parts[0] + [sep] + Join(parts[1..], sep)
  {
    if |parts| == 2 {
      assert parts[..1] == [parts[0]];
    } else {
      JoinFirst(parts[..|parts| - 1], sep);
      assert parts[..|parts| - 1][1..] == parts[1..|parts| - 1];
      JoinLast(parts, sep);
      JoinLast(parts[1..], sep);
      assert parts[1..][..|parts| - 2] == parts[1..|parts| - 1];
    }
  }

  /** A record passes the filter: it has a gestational age whose week text is
      all digits and, read as a number, equals the filter. A text filter never
      equals a number, so it passes nothing. */
  predicate ShowsWeek(r: Record, f: WeekFilter) {
    && HasGestationalAge(r)
    && var week := GalleryWeek(r.gestationalAge.value);
    && IsDigitString(week)
    && f.WeekNumber?
    && DigitsValue(week) == f.n
  }

  /** The filtering loop of `display_gallery`: the records it goes on to
      show, in their original order. */
  method FilterGallery(records: seq<Record>, f: WeekFilter) returns (shown: seq<Record>)
    ensures !FilterApplies(f) ==> shown == records
    ensures FilterApplies(f) ==> shown == Seqs.Filter(records, r => ShowsWeek(r, f))
    ensures forall r :: r in shown <==> r in records && (!FilterApplies(f) || ShowsWeek(r, f))
    ensures FilterApplies(f) && f.WeekText? ==> shown == []
  {
    if !FilterApplies(f) {
      return records;
    }
    shown := [];
    var i := 0;
    while i < |records|
      invariant 0 <= i <= |records|
      invariant shown == Seqs.Filter(records[..i], r => ShowsWeek(r, f))
      invariant f.WeekText? ==> shown == []
    {
      var record := records[i];
      Seqs.FilterSnoc(records[..i], record, r => ShowsWeek(r, f));
      assert records[..i + 1] == records[..i] + [record];
      if HasGestationalAge(record) {
        var week := GalleryWeek(record.gestationalAge.value);
        if IsDigitString(week) && f.WeekNumber? && DigitsValue(week) == f.n {
          shown := shown + [record];
        }
      }
      i := i + 1;
    }
    assert records[..i] == records;
  }

  /** The gallery and the chart read the week the same way when the age
      spells out `주`: a record the gallery shows under week `n` is charted
      under week `n`, if it is an ultrasound and `n` is not 0. */
  lemma {:induction false} GalleryAgreesWithChart(r: Record, n: int)
    requires ShowsWeek(r, WeekNumber(n)) && '주' in r.gestationalAge.value
    ensures GetWeekNumber(r.gestationalAge) == Some(n as nat)
  {
    var ga := r.gestationalAge.value;
    var week := GalleryWeek(ga);
    assert ga[..|week|] == week;
    assert RunEnd(ga, 0) == |week| by {
      PatternIsRun(ga, 0, |week|);
      assert ga[0..|week|] == week;
    }
    assert WeekMatchAt(ga, 0);
    assert ga[0..RunEnd(ga, 0)] == week;
  }

  // ---------------------------------------------------------------------
  // Upload checks

  /** What the upload widget hands over: the size in bytes and the file name. */
  datatype Upload = Upload(size: int, name: string)

  /** `(is_valid, error_message)`. */
  datatype Validation = Validation(isValid: bool, message: string)

  /** The size limit, 10 MB. */
  const MaxUploadBytes: int := 10 * 1024 * 1024

  /** The accepted extensions. */
  const AllowedTypes: seq<string> := ["png", "jpg", "jpeg"]

  const NoFileMessage: string := "파일이 업로드되지 않았습니다."
  const TooLargeMessage: string := "파일 크기가 10MB를 초과합니다."
  const UnsupportedTypeMessage: string := "지원하지 않는 파일 형식입니다. (png, jpg, jpeg 만 지원)"
  const NotAnImageMessage: string := "유효한 이미지 파일이 아닙니다."

  /** `name.split('.')[-1].lower()`: the text after the last dot (the whole
      name when there is none), in lower case. */
  function Extension(name: string): (ext: string)
    ensures |ext| <= |name|
    ensures ext == Lower(name[|name| - |ext|..])
    ensures '.' !in ext
    ensures |ext| < |name| ==> name[|name| - |ext| - 1] == '.'
    ensures '.' !in name ==> ext == Lower(name)
  {
    var piece := LastPiece(name, '.');
    assert forall k :: 0 <= k < |piece| ==> Lower(piece)[k] != '.';
    Lower(piece)
  }

  /** `validate_image`: the checks in order — a file at all, at most 10 MB,
      an allowed extension — and then whether the image library can decode
      and verify it (`decodes`, supplied from outside). */
  function ValidateImage(file: Option<Upload>, decodes: bool): (v: Validation)
    ensures v.isValid <==> v.message == ""
    ensures file.None? ==> v == Validation(false, NoFileMessage)
    ensures file.Some? && file.value.size > MaxUploadBytes ==> v == Validation(false, TooLargeMessage)
    ensures file.Some? && file.value.size <= MaxUploadBytes && Extension(file.value.name) !in AllowedTypes ==>
      v == Validation(false, UnsupportedTypeMessage)
    ensures file.Some? && file.value.size <= MaxUploadBytes && Extension(file.value.name) in AllowedTypes && !decodes ==>
      v == Validation(false, NotAnImageMessage)
  {
    if file.None? then Validation(false, NoFileMessage)
    else if file.value.size > MaxUploadBytes then Validation(false, TooLargeMessage)
    else if Extension(file.value.name) !in AllowedTypes then Validation(false, UnsupportedTypeMessage)
    else if !decodes then Validation(false, NotAnImageMessage)
    else Validation(true, "")
  }

  /** An upload is accepted exactly when all four checks pass. */
  lemma ValidIff(file: Option<Upload>, decodes: bool)
    ensures ValidateImage(file, decodes).isValid <==>
      && file.Some?
      && file.value.size <= MaxUploadBytes
      && Extension(file.value.name) in AllowedTypes
      && decodes
  {
  }

  /** Extensions are matched case-insensitively, and a file of exactly
      10 MB is still accepted. */
  lemma UpperCaseExtensionExample(name: string)
    requires name == "scan.PNG"
    ensures ValidateImage(Some(Upload(MaxUploadBytes, name)), true).isValid
  {
    assert name == "scan" + ['.'] + "PNG";
    assert LastPiece(name, '.') == "PNG";
    assert Lower("PNG") == "png";
  }

  /** The last dot-piece of "scan.png.zip" is "zip". */
  lemma DoubleExtensionPiece(name: string)
    requires name == "scan.png.zip"
    ensures LastPiece(name, '.') == "zip"
  {
    assert name == "scan.png" + ['.'] + "zip";
  }

  /** Only the text after the last dot counts as the extension. */
  lemma DoubleExtensionExample(name: string)
    requires name == "scan.png.zip"
    ensures ValidateImage(Some(Upload(100, name)), true) == Validation(false, UnsupportedTypeMessage)
  {
    DoubleExtensionPiece(name);
    assert Lower("zip") == "zip";
  }

  /** A name without a dot is its own extension. */
  lemma BareNameExample(name: string)
    requires name == "jpeg"
    ensures ValidateImage(Some(Upload(100, name)), true).isValid
  {
    assert Lower(name) == "jpeg";
  }
}
